=== FILE: README.md ===
# Trackio habit analytics, modelled in Dafny

Trackio is an iOS habit tracker. Each habit carries a set of completed
days. The app derives streaks, completion rates, weekday distributions
and monthly progress from that set, and aggregates them into a dashboard.
This project models that completion-and-analytics core as immutable
datatypes and pure functions, and proves what the code promises about it.

Conventions of the model:

- **Time.** An instant is an `int` count of seconds of local wall-clock
  time since a local midnight. That epoch, 1970-01-01, was a Thursday. A
  day is an `int` day number: `DayOf(t) = t / 86400` and
  `StartOfDay(t) = DayOf(t) * 86400`. The weekday is `(d + 4) % 7 + 1`,
  with Sunday = 1, as in Foundation's `.weekday` component. Time zones and
  DST are not modelled.
- **Parameters.** The current instant (`Date()`) is the parameter `now`.
  "One calendar month ago" is the parameter `monthAgo`.
- **Completion sets.** A habit's completion set is a `set<Instant>`, like
  the source's `Set<Date>`. Being day-normalised (every element a start of
  day) is therefore a real invariant: decoding establishes it and toggling
  keeps it.
- **Rates** are `real`. A rate is completed days × 100 / days.
- **Store.** The store is a `seq<Habit>`. Every mutation returns the new
  list. Look-ups by id take the first match, like
  `first(where:)` / `firstIndex(where:)`.
- **Day labels.** The weekday strings ("Sun" … "Sat") that key the weekday
  distribution and the weekly trend are the enumeration `DayLabel`. Its
  `Text()` gives the string.
- **Source loops.** The loops of `getStreak`, `getLongestStreak`,
  `getCompletionRate` and `getMonthlyProgress` are written out as methods
  (`ScanStreak`, `ScanLongestStreak`, `ScanCompletionRate`,
  `ScanMonthlyProgress`). Each is proved equal to the functional
  definition that the rest of the model uses. `Date.dates(in:)`
  (`Calendar.DatesIn`) and `getCompletionTrend`
  (`Dashboard.GetCompletionTrend`) have no separate functional
  definition. Their contracts describe the result element by element.

Modules, one per source file or concern:

- `Calendar` — dates
- `Habits` — the habit record and its coding
- `HabitStats` — per-habit statistics
- `HabitStore` — the store, its mutations, queries and loops
- `AnalyticsModels` — the analytics records
- `AnalyticsHelpers` — the collection average
- `Dashboard` — the dashboard view model
- `WeekGrid` — the week grid
- `DataExport` — the export summary
- `Wrappers`, `Sets`, `Numeric` — generic helpers

## Model

| member | source | states |
|---|---|---|
| Calendar.StartOfDay | TrackioApp/Helpers/DateHelpers.swift:5-7 | the start of an instant's day is a day boundary, at or before the instant and less than a day before it |
| Calendar.StartOfDayIdempotent | TrackioApp/Helpers/DateHelpers.swift:5-7 | taking the start of day twice gives the same instant as once |
| Calendar.DatesIn | TrackioApp/Helpers/DateHelpers.swift:9-17 | empty when lower ≥ upper bound; otherwise starts at the lower bound, each element is one day after the previous, all lie below the upper bound, and one more step would reach it, so no day step below the bound is missing |
| Calendar.Weekday | TrackioApp/ViewModels/HabitStore.swift:145 | the weekday number is always in 1..7 |
| Calendar.WeekdaysDistinct | TrackioApp/ViewModels/Analytics/DashboardViewModel.swift:101-111 | days less than a week apart have different weekdays and labels, so the trend's seven keys never collide |
| Calendar.LabelWithinWeek | TrackioApp/ViewModels/Analytics/DashboardViewModel.swift:101-111 | every weekday label occurs among the seven days ending on any day |
| Habits.NewHabit | TrackioApp/Models/Habit.swift:23-29 | the initialiser stores the given id, title, description, emoji, colour and completion set |
| Habits.NewHabitDefaults | TrackioApp/Models/Habit.swift:23-29 | without colour and dates, the new habit is blue with no completions |
| Habits.SameHabitIsIdentity | TrackioApp/Models/Habit.swift:14-16 | habit equality is reflexive and symmetric, holds exactly when the ids agree, and ignores changes to every other field |
| Habits.Normalise | TrackioApp/Models/Habit.swift:41-43 | the projected set is day-normalised; it holds the start of day of every raw instant and nothing else |
| Habits.NormaliseNoLarger | TrackioApp/Models/Habit.swift:41-43 | projecting to days never enlarges the set |
| Habits.NormaliseFixpoint | TrackioApp/Models/Habit.swift:41-43 | normalising leaves a set unchanged exactly when it is already day-normalised |
| Habits.Decode | TrackioApp/Models/Habit.swift:32-55 | decoding fails exactly when a required key is missing (a colour component is required only once `colorRed` is present); on success the habit keeps the record's id, title, description and emoji, its completion set is the start-of-day image of the raw one (so day-normalised and no larger), and its colour is rebuilt from the four components when `colorRed` is present, else blue |
| Habits.Encode | TrackioApp/Models/Habit.swift:58-79 | every key is written: the id, title, description and emoji, the completion set as is, and the four components the platform reports for the colour |
| Habits.RoundTrip | TrackioApp/Models/Habit.swift:32-79 | decoding an encoded habit succeeds; it keeps id, title, description and emoji; the colour becomes its components; the completion set is kept exactly when it was already day-normalised, and otherwise becomes its normalisation |
| Habits.DecodeWithoutColor | TrackioApp/Models/Habit.swift:46-54 | a record with all required keys but no colour keys (the legacy format) decodes to the habit it names, in the default blue, with its completion instants projected to their days |
| HabitStats.CurrentStreak | TrackioApp/ViewModels/HabitStore.swift:69-83 | the backward walk from today counts at most the completed days up to today; CurrentStreakIsRun and CurrentStreakOfRun pin it as the length of the completed run ending today |
| HabitStats.CurrentStreakIsRun | TrackioApp/ViewModels/HabitStore.swift:69-83 | the current streak k covers completed days today−k+1 … today, and day today−k is not completed |
| HabitStats.CurrentStreakOfRun | TrackioApp/ViewModels/HabitStore.swift:69-83 | conversely, any k with today−k+1 … today completed and today−k not completed is the current streak |
| HabitStats.LongestStreak | TrackioApp/ViewModels/HabitStore.swift:85-111 | the longest streak never exceeds the 366 days the scan visits |
| HabitStats.LongestStreakIsRun | TrackioApp/ViewModels/HabitStore.swift:85-111 | the longest streak is an actual run of completed days inside today−365 … today |
| HabitStats.LongestStreakIsMaximal | TrackioApp/ViewModels/HabitStore.swift:85-111 | no run of completed days inside the window is longer |
| HabitStats.LongestStreakCoversCurrent | TrackioApp/ViewModels/HabitStore.swift:85-111 | the longest streak is at least min(current streak, 366) |
| HabitStats.CountDone | TrackioApp/ViewModels/HabitStore.swift:120-129 | the window walk counts at most one per day of the window; CountDoneIsSize pins it to the number of completed days |
| HabitStats.CountDoneIsSize | TrackioApp/ViewModels/HabitStore.swift:120-129 | the window walk counts exactly the completed days of the window |
| HabitStats.CompletionRate | TrackioApp/ViewModels/HabitStore.swift:113-132 | the rate is a percentage, in [0, 100] |
| HabitStats.CompletionRateCounts | TrackioApp/ViewModels/HabitStore.swift:113-132 | rate × days = 100 × the number of completed days among today−days+1 … today |
| HabitStats.WeekdayDistribution | TrackioApp/ViewModels/HabitStore.swift:136-151 | all seven labels are keys, and each maps to the number of completions falling on that weekday |
| HabitStats.WeekdayDistributionTotal | TrackioApp/ViewModels/HabitStore.swift:136-151 | the seven counts add up to the number of completions |
| HabitStats.MonthlyProgress | TrackioApp/ViewModels/HabitStore.swift:153-174 | every key is a day start no earlier than the day of `monthAgo`, valued 1 exactly when that day is completed and 0 exactly when it is not; MonthlyProgressDense pins the key set |
| HabitStats.MonthlyProgressDense | TrackioApp/ViewModels/HabitStore.swift:153-174 | the map's keys are exactly the day starts from the day of `monthAgo` to the walk's last day; each maps to 1 if completed and 0 if not |
| HabitStats.MonthlyProgressEndsToday | TrackioApp/ViewModels/HabitStore.swift:157-165 | when "a month ago" keeps the time of day, the walk's last day is today |
| HabitStore.Apply | TrackioApp/ViewModels/HabitStore.swift:225-230 | each field with an update takes the new value; every other field, the id and the completion set are kept |
| HabitStore.ApplyLaws | TrackioApp/ViewModels/HabitStore.swift:225-230 | the empty update is a no-op; applying an update twice is the same as once; the result is the same habit |
| HabitStore.FirstIndex | TrackioApp/ViewModels/HabitStore.swift:26 | None exactly when no habit has the id; otherwise the first index with it |
| HabitStore.Find | TrackioApp/ViewModels/HabitStore.swift:70 | None exactly when no habit has the id; otherwise the stored habit with that id that no earlier habit shares the id with |
| HabitStore.AddHabit | TrackioApp/ViewModels/HabitStore.swift:21-23 | the new habit is appended and the old list is its prefix |
| HabitStore.AddHabitFresh | TrackioApp/ViewModels/HabitStore.swift:21-23 | adding a habit with a fresh id keeps ids unique and makes the habit findable |
| HabitStore.UpdateHabit | TrackioApp/ViewModels/HabitStore.swift:25-30 | an unknown id leaves the list unchanged; otherwise only the first habit with the id changes, to the updated habit |
| HabitStore.DeleteHabit | TrackioApp/ViewModels/HabitStore.swift:32-34 | exactly the habits without the id remain; an absent id leaves the list unchanged |
| HabitStore.DeleteHabitDistributes | TrackioApp/ViewModels/HabitStore.swift:32-34 | deletion distributes over concatenation, so survivors keep their order |
| HabitStore.DeleteUndoesAdd | TrackioApp/ViewModels/HabitStore.swift:21-34 | deleting a just-added habit with a fresh id restores the list |
| HabitStore.ToggleHabit | TrackioApp/ViewModels/HabitStore.swift:36-65 | an unknown id leaves the list unchanged; otherwise the start of the date's day flips in the first matching habit's set, and nothing else changes |
| HabitStore.ToggleTwice | TrackioApp/ViewModels/HabitStore.swift:36-65 | toggling the same day twice restores the list |
| HabitStore.ToggleKeepsNormalised | TrackioApp/ViewModels/HabitStore.swift:51-61 | toggling keeps every completion set day-normalised |
| HabitStore.MutationsKeepInvariant | TrackioApp/ViewModels/HabitStore.swift:25-65 | update, delete and toggle keep ids unique and sets day-normalised |
| HabitStore.GetStreak | TrackioApp/ViewModels/HabitStore.swift:69-83 | 0 for an unknown id; otherwise k days ending today are completed and the day before them is not |
| HabitStore.ScanStreak | TrackioApp/ViewModels/HabitStore.swift:69-83 | the backward walk returns exactly `GetStreak` |
| HabitStore.GetLongestStreak | TrackioApp/ViewModels/HabitStore.swift:85-111 | 0 for an unknown id; otherwise the found habit's longest run in the 366-day look-back (pinned by HabitStats.LongestStreakIsRun and HabitStats.LongestStreakIsMaximal), at most 366 and at least min(current streak, 366) |
| HabitStore.ScanLongestStreak | TrackioApp/ViewModels/HabitStore.swift:85-111 | the backward scan with a reset counter and the whole-days cut-off returns exactly `GetLongestStreak` |
| HabitStore.GetCompletionRate | TrackioApp/ViewModels/HabitStore.swift:113-132 | 0 for an unknown id; always in [0, 100]; rate × days = 100 × completed days in the window |
| HabitStore.ScanCompletionRate | TrackioApp/ViewModels/HabitStore.swift:113-132 | the forward window walk returns exactly `GetCompletionRate` |
| HabitStore.GetWeekdayDistribution | TrackioApp/ViewModels/HabitStore.swift:136-151 | empty for an unknown id; otherwise the found habit's per-weekday completion counts, all seven labels present, summing to the number of completions |
| HabitStore.GetMonthlyProgress | TrackioApp/ViewModels/HabitStore.swift:153-174 | empty for an unknown id; otherwise the dense 0/1 map of the habit's days |
| HabitStore.ScanMonthlyProgress | TrackioApp/ViewModels/HabitStore.swift:153-174 | the day-by-day walk from `monthAgo` while not after now builds exactly `GetMonthlyProgress` |
| HabitStore.WalkMonthlyProgress | TrackioApp/ViewModels/HabitStore.swift:162-172 | the day loop over one habit's completions builds exactly the dense day map `MonthlyProgress` |
| HabitStore.GetBestPerformingHabit | TrackioApp/ViewModels/HabitStore.swift:176-180 | None exactly for an empty store; otherwise a stored habit |
| HabitStore.BestPerformingIsFirstMaximal | TrackioApp/ViewModels/HabitStore.swift:176-180 | the best performer has a maximal 7-day rate, and every earlier habit's rate is strictly lower |
| HabitStore.TotalCompletions | TrackioApp/ViewModels/HabitStore.swift:182-184 | the total bounds every habit's count and is 0 exactly when every set is empty |
| HabitStore.TotalCompletionsAppend | TrackioApp/ViewModels/HabitStore.swift:182-184 | the total of a concatenation is the sum of the totals |
| HabitStore.TotalCompletionsPermutation | TrackioApp/ViewModels/HabitStore.swift:182-184 | the total does not depend on the order of the habits |
| HabitStore.ToggleChangesTotal | TrackioApp/ViewModels/HabitStore.swift:182-184 | toggling a known habit moves the total by one: down if the day was completed, up otherwise |
| HabitStore.GetAverageCompletionRate | TrackioApp/ViewModels/HabitStore.swift:186-189 | 0 for an empty store; otherwise the sum of the per-habit rates divided by the count; always in [0, 100] |
| Numeric.FirstArgMax | TrackioApp/ViewModels/HabitStore.swift:177-179 | `max(by: <)` keeps the first maximal element: no element is larger and every earlier one is strictly smaller |
| Numeric.MaxFold | TrackioApp/ViewModels/Analytics/DashboardViewModel.swift:117-121 | folding `max` from 0 bounds every element and equals 0 or one of them |
| AnalyticsModels.AverageCompletionsPerWeek | TrackioApp/Models/Analytics/AnalyticsModels.swift:26-28 | the weekly average times 7 is the total completions |
| AnalyticsModels.BestPerformingDay | TrackioApp/Models/Analytics/AnalyticsModels.swift:30-32 | None exactly when the distribution is empty; otherwise a key whose value is at least every other value |
| AnalyticsModels.WeekdayCompletionRate | TrackioApp/Models/Analytics/AnalyticsModels.swift:196-198 | the stored value for a present day, 0 for an absent one |
| AnalyticsModels.StreakText | TrackioApp/Models/Analytics/AnalyticsModels.swift:192-194 | "1 day" for a streak of 1, otherwise the number followed by " days" |
| AnalyticsModels.StreakTextReadsBack | TrackioApp/Models/Analytics/AnalyticsModels.swift:192-194 | the text starts with decimal digits that read back as the streak, followed by " day" or " days" |
| AnalyticsModels.EmptyMetrics | TrackioApp/Models/Analytics/AnalyticsModels.swift:143-152 | nothing active, the "No habits yet" title, every count and the average 0, an empty trend whose sorted form reads 0 on all seven days |
| AnalyticsModels.HasActiveHabits | TrackioApp/Models/Analytics/AnalyticsModels.swift:131-133 | true exactly when the active count is positive; the `Dashboard.OverallMetrics` contract states that for the dashboard's metrics this holds exactly when some habit has a live streak |
| AnalyticsModels.WeeklyTrendSorted | TrackioApp/Models/Analytics/AnalyticsModels.swift:135-140 | exactly seven pairs, Sun..Sat in order, each the stored value or 0 when absent |
| AnalyticsModels.WeeklyTrendSortedByValues | TrackioApp/Models/Analytics/AnalyticsModels.swift:135-140 | trends that agree on every day, counting an absent key as 0, sort identically |
| AnalyticsModels.PeriodFromRawValue | TrackioApp/Models/Analytics/AnalyticsModels.swift:156-159 | a raw value names a period exactly when it is 7, 30 or 365, and that period has the raw value |
| AnalyticsModels.PeriodRawValueRoundTrip | TrackioApp/Models/Analytics/AnalyticsModels.swift:156-171 | every period is recovered from its raw value and is one of the listed cases |
| AnalyticsHelpers.AverageCompletionRate | TrackioApp/Helpers/AnalyticsHelpers.swift:18-21 | 0 for an empty collection; otherwise the sum of the rates divided by the count |
| AnalyticsHelpers.AverageWithinRates | TrackioApp/Helpers/AnalyticsHelpers.swift:18-21 | the average lies between any bounds of the rates, so it is a percentage when every rate is |
| AnalyticsHelpers.AverageIgnoresOrder | TrackioApp/Helpers/AnalyticsHelpers.swift:18-21 | reordering the collection does not change the average |
| Dashboard.CalculateHabitAnalytics | TrackioApp/ViewModels/Analytics/DashboardViewModel.swift:50-64 | one entry per habit in store order, carrying its id, title, emoji, colour and own completion count; rates are percentages and longest streaks are at most 366 |
| Dashboard.AnalyticsOfOwnHabit | TrackioApp/ViewModels/Analytics/DashboardViewModel.swift:50-64 | with unique ids, each entry holds its own habit's rate over the selected period, streaks, distribution and monthly map |
| Dashboard.GetHabitAnalytics | TrackioApp/ViewModels/Analytics/DashboardViewModel.swift:132-134 | None exactly when no entry has the id; otherwise the first entry with it |
| Dashboard.GetHabitAnalyticsFindsOwn | TrackioApp/ViewModels/Analytics/DashboardViewModel.swift:132-134 | with unique ids, looking up a habit's id finds that habit's entry |
| Dashboard.CalculateActiveHabits | TrackioApp/ViewModels/Analytics/DashboardViewModel.swift:81-85 | at most the habit count, and positive exactly when some habit has a current streak |
| Dashboard.CalculateActiveStreaks | TrackioApp/ViewModels/Analytics/DashboardViewModel.swift:123-127 | the `filter { … }.count`, counted one habit at a time: at most the habit count, positive exactly when some habit has a live streak, and always equal to the active-habit count taken as the size of the set of streaking positions |
| Dashboard.ActiveHabitsCompletedToday | TrackioApp/ViewModels/Analytics/DashboardViewModel.swift:81-85 | with unique ids, the active habits are exactly those completed today |
| Dashboard.FindBestPerformingHabit | TrackioApp/ViewModels/Analytics/DashboardViewModel.swift:87-92 | "No habits yet" for an empty store; otherwise the title of the first habit whose 7-day rate is maximal, as `max(by:)` picks it |
| Dashboard.DayRate | TrackioApp/ViewModels/Analytics/DashboardViewModel.swift:106-110 | in [0, 100]; 0 with no habits; otherwise rate × habit count = 100 × habits completed that day |
| Dashboard.CalculateWeeklyTrend | TrackioApp/ViewModels/Analytics/DashboardViewModel.swift:94-115 | all seven labels present with values in [0, 100]; each of the last seven days' labels holds that day's share; all 0 with no habits |
| Dashboard.TrendTodayIsActiveShare | TrackioApp/ViewModels/Analytics/DashboardViewModel.swift:94-115 | with unique ids, today's trend entry is the active-habit share |
| Dashboard.CalculateMaxStreak | TrackioApp/ViewModels/Analytics/DashboardViewModel.swift:117-121 | 0 with no habits; at least every habit's longest streak and equal to one of them; at most 366 |
| Dashboard.OverallMetrics | TrackioApp/ViewModels/Analytics/DashboardViewModel.swift:67-76 | the habit count; the completion total; the active count equal to the number of habits with a live streak (with unique ids, those completed today) and to the active-streak count; the average equal to the mean of the per-habit rates over the window, in [0, 100], 0 when empty; the placeholder title when empty, otherwise the first habit with the maximal 7-day rate; every label in the trend, each of the last seven days at its completed share; the max streak bounding every habit's longest streak and attained by one, 0 when empty |
| Dashboard.CalculateMetrics | TrackioApp/ViewModels/Analytics/DashboardViewModel.swift:47-78 | the per-habit analytics list together with the overall figures over the selected period's window, whose average also equals the mean of the list's own rates |
| Dashboard.AnalyticsRatesMatchStore | TrackioApp/ViewModels/Analytics/DashboardViewModel.swift:49-63 | the per-habit analytics carry, in store order, the completion rates the store reports over the selected period |
| Dashboard.BestHabitIgnoresPeriod | TrackioApp/ViewModels/Analytics/DashboardViewModel.swift:71 | the best habit is the same whatever the selected period |
| Dashboard.EmptyStoreMetrics | TrackioApp/Models/Analytics/AnalyticsModels.swift:143-152 | an empty store gives the empty metrics, except that the trend has all seven days at 0, which sorts the same as the empty trend |
| Dashboard.GetCompletionTrend | TrackioApp/ViewModels/Analytics/DashboardViewModel.swift:136-147 | one point per day of the period, ascending one day at a time and ending today, each flagged exactly when its day is completed |
| WeekGrid.DaysOfWeek | TrackioApp/Views/Habits/Components/WeekGridView.swift:43-52 | seven consecutive day starts, the first being today moved by 2 − weekday days |
| WeekGrid.DaysOfWeekMatchHeader | TrackioApp/Views/Habits/Components/WeekGridView.swift:14-52 | the first day is a Monday and the days' labels match the Mon..Sun header |
| WeekGrid.TodayShownUnlessSunday | TrackioApp/Views/Habits/Components/WeekGridView.swift:45-47 | today is in the grid exactly when it is not Sunday; on a Sunday the grid starts the next day |
| WeekGrid.IsCellCompleted | TrackioApp/Views/Habits/Components/WeekGridView.swift:31 | a cell is checked exactly when the start of its day is in the habit's completion set; TapFlipsCell shows how a tap changes it |
| WeekGrid.TapCell | TrackioApp/Views/Habits/Components/WeekGridView.swift:34 | a tap toggles through the store: the list keeps its length and ids, and a habit no longer stored leaves it unchanged; TapFlipsCell states the flipped cell |
| WeekGrid.TapFlipsCell | TrackioApp/Views/Habits/Components/WeekGridView.swift:28-34 | after a tap the habit's cell for that date shows the opposite state, and every other day's cell is unchanged |
| DataExport.Summary | TrackioApp/Utilities/DataExportManager.swift:29-35 | the habit count, the completion total, and the mean analytics rate (0 with no analytics) |
| DataExport.SummaryIgnoresExportDate | TrackioApp/Utilities/DataExportManager.swift:29-35 | the summary does not depend on the export date |
| DataExport.SummaryAverageIsPercentage | TrackioApp/Utilities/DataExportManager.swift:33 | the summary average is a percentage when every analytics rate is |
| DataExport.SummaryIgnoresOrder | TrackioApp/Utilities/DataExportManager.swift:31-33 | reordering habits and analytics does not change the summary |

## Left out

- The diagnostic `print` logging in `toggleHabit` (HabitStore.swift:37-64) is not modelled. It is console output and changes no state.
- Persistence is not modelled: saving to and loading from `UserDefaults`, the JSON encoders, and the JSON export with file writing. These are I/O.
- Sample habits seeded on first launch are not modelled. They are fixed data, not logic.
- `HabitAnalytics`' own coding (with colour components) is not modelled. It is the platform's encoder around the same fields.
- Colours are opaque values. `UIColor.getRed` is a function parameter of `Habits.Encode`, and floating-point colour precision is not modelled.
- The `Double` arithmetic of rates is exact `real` arithmetic here. Rounding is not modelled.
- HabitStats.CompletionRate: requires `days >= 1`. With `days <= 0` the source divides by zero or by a negative number; every caller passes 7, 30 or 365.
- HabitStore.GetCompletionRate: requires `days >= 1`, for the same reason.
- HabitStore.GetAverageCompletionRate: requires `days >= 1`, for the same reason. With `days <= 0` and a non-empty store, the source's average is NaN. The source's default argument `days: Int = 7` is an explicit parameter in the model.
- The time zone and DST are not modelled: every day is 86 400 seconds. Calendar-month subtraction is the parameter `monthAgo`.
- The source re-reads `Date()` inside the longest-streak loop. The model uses one `now` for the whole scan.
- `Calendar` arithmetic that returns nil is not modelled: the `guard … else { break }` and `?? date` fallbacks are unreachable with integer days.
- The weekday labels are the `DayLabel` enumeration, not locale-dependent "EEE" strings. `WeekdayCompletionRate` therefore takes a label, not an arbitrary string.
- Dashboard.AnalyticsOfOwnHabit, Dashboard.ActiveHabitsCompletedToday, Dashboard.TrendTodayIsActiveShare, Dashboard.GetHabitAnalyticsFindsOwn and WeekGrid.TapFlipsCell assume unique ids, as freshly generated UUIDs are. With duplicate ids the source looks up the first habit with the id, and so does the model.
- `HabitAnalytics.id`, a fresh random `UUID()`, is not modelled. Habit ids are natural numbers supplied by the caller.
- The formatted rate strings (`completionRateFormatted`) and the period titles (`title`, `shortTitle`, `analyticsTitle`) are not modelled. They are presentation only.
- `Date.startOfWeek` is not modelled. It is an unused helper over calendar components.
- `AnalyticsModels.BestPerformingDay` takes the dictionary's iteration order as a parameter, because Swift leaves that order unspecified.
- The views, the search filter, and the store, notification and haptic services are not modelled. The dashboard's Combine subscription and main-actor task become a plain function call.

=== FILE: analytics_helpers.dfy ===
/** The average completion rate of a collection of habit analytics
    (TrackioApp/Helpers/AnalyticsHelpers.swift). */
module AnalyticsHelpers {
  import opened Numeric
  import opened Sets
  import opened AnalyticsModels

  /** The completion rates of the analytics, in order. */
  function Rates(xs: seq<HabitAnalytics>): (rs: seq<real>)
    ensures |rs| == |xs|
    ensures forall i :: 0 <= i < |xs| ==> rs[i] == xs[i].completionRate
  {
    seq(|xs|, i requires 0 <= i < |xs| => xs[i].completionRate)
  }

  /** `averageCompletionRate`: 0 for an empty collection, otherwise the
      left-to-right sum of the rates divided by the count. */
  function AverageCompletionRate(xs: seq<HabitAnalytics>): (r: real)
    ensures |xs| == 0 ==> r == 0.0
    ensures |xs| > 0 ==> r == Sum(Rates(xs)) / (|xs| as real)
  {
    Mean(Rates(xs))
  }

  /** The average lies between any lower and upper bound of the rates; in
      particular it is a percentage when every rate is. */
  lemma AverageWithinRates(xs: seq<HabitAnalytics>, lo: real, hi: real)
    requires |xs| > 0
    requires forall i :: 0 <= i < |xs| ==> lo <= xs[i].completionRate <= hi
    ensures lo <= AverageCompletionRate(xs) <= hi
  {
    MeanBounds(Rates(xs), lo, hi);
  }

  /** Taking out the entry at `i` takes its rate out of the rates. */
  lemma RatesRemoveAt(xs: seq<HabitAnalytics>, i: int)
    requires 0 <= i < |xs|
    ensures Rates(xs[..i] + xs[i + 1..]) == Rates(xs)[..i] + Rates(xs)[i + 1..]
  {
  }

  /** Reordering the analytics reorders their rates. */
  lemma {:induction false} RatesPermutation(xs: seq<HabitAnalytics>, ys: seq<HabitAnalytics>)
    requires multiset(xs) == multiset(ys)
    ensures multiset(Rates(xs)) == multiset(Rates(ys))
    decreases |xs|
  {
    if |xs| > 0 {
      var n := |xs| - 1;
      var x, xs' := xs[n], xs[..n];
      var i := MatchLast(xs, ys);
      var ys' := ys[..i] + ys[i + 1..];
      RatesPermutation(xs', ys');
      RatesRemoveAt(xs, n);
      RatesRemoveAt(ys, i);
      assert Rates(xs)[..n] + Rates(xs)[n + 1..] == Rates(xs');
      MultisetRemoveAt(Rates(xs), n);
      MultisetRemoveAt(Rates(ys), i);
    }
  }

  /** The average does not depend on the order of the collection. */
  lemma AverageIgnoresOrder(xs: seq<HabitAnalytics>, ys: seq<HabitAnalytics>)
    requires multiset(xs) == multiset(ys)
    ensures AverageCompletionRate(xs) == AverageCompletionRate(ys)
  {
    RatesPermutation(xs, ys);
    MeanPermutation(Rates(xs), Rates(ys));
  }
}

=== FILE: analytics_models.dfy ===
/** The analytics records (TrackioApp/Models/Analytics/AnalyticsModels.swift):
    per-habit analytics, the dashboard metrics and the analysis period, with
    their derived properties. */
module AnalyticsModels {
  import opened Wrappers
  import opened Calendar
  import opened Numeric
  import opened Habits

  /** `HabitAnalytics`: a snapshot of one habit's statistics. Its own fresh
      `id` is not modelled. */
  datatype HabitAnalytics = HabitAnalytics(
    habitId: HabitId,
    title: string,
    emoji: string,
    color: Color,
    completionRate: real,
    currentStreak: int,
    longestStreak: int,
    totalCompletions: int,
    weekdayDistribution: map<DayLabel, real>,
    monthlyProgress: map<Instant, int>)

  /** `averageCompletionsPerWeek`: total completions spread over seven. */
  function AverageCompletionsPerWeek(a: HabitAnalytics): (r: real)
    ensures r * 7.0 == a.totalCompletions as real
    ensures a.totalCompletions >= 0 ==> r >= 0.0
  {
    (a.totalCompletions as real) / 7.0
  }

  /** The distribution's values in the dictionary's iteration order `order`. */
  function ValuesIn(m: map<DayLabel, real>, order: seq<DayLabel>): (vs: seq<real>)
    requires forall l :: l in order ==> l in m
    ensures |vs| == |order|
    ensures forall i :: 0 <= i < |order| ==> vs[i] == m[order[i]]
  {
    seq(|order|, i requires 0 <= i < |order| => m[order[i]])
  }

  /** `bestPerformingDay`: `max(by:)` over the distribution, enumerated in
      `order` (the dictionary's own, unspecified, iteration order). */
  function BestPerformingDay(a: HabitAnalytics, order: seq<DayLabel>): (r: Option<DayLabel>)
    requires forall l :: l in order <==> l in a.weekdayDistribution
    ensures r.None? <==> a.weekdayDistribution == map[]
    ensures r.Some? ==> r.value in a.weekdayDistribution
    ensures r.Some? ==> forall l :: l in a.weekdayDistribution ==>
              a.weekdayDistribution[l] <= a.weekdayDistribution[r.value]
  {
    var m := a.weekdayDistribution;
    if |order| == 0 then
      assert forall l :: l !in m;
      assert m == map[];
      None
    else
      assert order[0] in m;
      var vs := ValuesIn(m, order);
      var i := FirstArgMax(vs);
      assert forall l :: l in m ==> exists k :: 0 <= k < |order| && order[k] == l && vs[k] == m[l];
      Some(order[i])
  }

  /** `weekdayCompletionRate(for:)`: the stored value, 0 for an absent day. */
  function WeekdayCompletionRate(a: HabitAnalytics, day: DayLabel): (r: real)
    ensures day in a.weekdayDistribution ==> r == a.weekdayDistribution[day]
    ensures day !in a.weekdayDistribution ==> r == 0.0
  {
    if day in a.weekdayDistribution then a.weekdayDistribution[day] else 0.0
  }

  /** `streakText`: the streak followed by "day", plural unless it is 1. */
  function StreakText(a: HabitAnalytics): (s: string)
    ensures a.currentStreak == 1 ==> s == "1 day"
    ensures a.currentStreak != 1 ==> s == IntToString(a.currentStreak) + " days"
  {
    IntToString(a.currentStreak) + " day" + (if a.currentStreak == 1 then "" else "s")
  }

  /** The number at the head of the streak text reads back as the streak. */
  lemma StreakTextReadsBack(a: HabitAnalytics)
    requires a.currentStreak >= 0
    ensures var digits := NatToString(a.currentStreak);
            && |digits| < |StreakText(a)|
            && StreakText(a)[..|digits|] == digits
            && DigitsValue(digits) == a.currentStreak
            && StreakText(a)[|digits|..] in {" day", " days"}
  {
    var digits := NatToString(a.currentStreak);
    var s := StreakText(a);
    NatToStringValue(a.currentStreak);
    if a.currentStreak == 1 {
      assert digits == "1";
    } else {
      assert s == digits + " days";
    }
  }

  /** `AnalyticsMetrics`: the dashboard's overall figures. */
  datatype AnalyticsMetrics = AnalyticsMetrics(
    totalHabits: int,
    activeHabits: int,
    averageCompletionRate: real,
    bestPerformingHabit: string,
    totalCompletions: int,
    weeklyTrend: map<DayLabel, real>,
    maxStreak: int,
    totalActiveStreaks: int)

  /** The best-habit text shown for an empty store. */
  const NoHabitsTitle: string := "No habits yet"

  /** `AnalyticsMetrics.empty`: the figures shown before any habit exists.
      Nothing is active, the placeholder title is shown, every count is 0,
      and the sorted trend reads 0 on all seven days. */
  function EmptyMetrics(): (m: AnalyticsMetrics)
    ensures !HasActiveHabits(m) && m.bestPerformingHabit == NoHabitsTitle
    ensures m.totalHabits == 0 && m.totalCompletions == 0 && m.totalActiveStreaks == 0 && m.maxStreak == 0
    ensures m.averageCompletionRate == 0.0 && m.weeklyTrend == map[]
    ensures forall i :: 0 <= i < 7 ==> WeeklyTrendSorted(m)[i].value == 0.0
  {
    AnalyticsMetrics(0, 0, 0.0, NoHabitsTitle, 0, map[], 0, 0)
  }

  /** `hasActiveHabits`. */
  predicate HasActiveHabits(m: AnalyticsMetrics) {
    m.activeHabits > 0
  }

  /** One `(day, value)` pair of `weeklyTrendSorted`. */
  datatype TrendEntry = TrendEntry(day: DayLabel, value: real)

  /** `weeklyTrendSorted`: the seven days Sun..Sat, 0 where the trend has no
      entry. */
  function WeeklyTrendSorted(m: AnalyticsMetrics): (r: seq<TrendEntry>)
    ensures |r| == 7
    ensures forall i :: 0 <= i < 7 ==> r[i].day == WeekdayLabels[i] && r[i].day.Number() == i + 1
    ensures forall i :: 0 <= i < 7 ==>
              r[i].value == (if r[i].day in m.weeklyTrend then m.weeklyTrend[r[i].day] else 0.0)
  {
    seq(7, i requires 0 <= i < 7 =>
      var day := WeekdayLabels[i];
      TrendEntry(day, if day in m.weeklyTrend then m.weeklyTrend[day] else 0.0))
  }

  /** The sorted trend depends only on the trend's values for the seven days:
      absent keys and stored zeros read the same. */
  lemma WeeklyTrendSortedByValues(m: AnalyticsMetrics, n: AnalyticsMetrics)
    requires forall l: DayLabel ::
               (if l in m.weeklyTrend then m.weeklyTrend[l] else 0.0)
               == (if l in n.weeklyTrend then n.weeklyTrend[l] else 0.0)
    ensures WeeklyTrendSorted(m) == WeeklyTrendSorted(n)
  {
  }

  /** `AnalyticsPeriod`, an `Int`-backed enumeration. */
  datatype AnalyticsPeriod = Week | Month | Year {
    function RawValue(): (n: int)
      ensures n in {7, 30, 365}
    {
      match this
      case Week => 7
      case Month => 30
      case Year => 365
    }

    /** `days`. */
    function Days(): (n: int)
      ensures n == RawValue() && n >= 1
    {
      RawValue()
    }
  }

  /** `AnalyticsPeriod.allCases`, in declaration order. */
  const AllPeriods: seq<AnalyticsPeriod> := [Week, Month, Year]

  /** `AnalyticsPeriod(rawValue:)`. */
  function PeriodFromRawValue(n: int): (r: Option<AnalyticsPeriod>)
    ensures r.Some? ==> r.value.RawValue() == n
    ensures r.None? <==> n !in {7, 30, 365}
  {
    if n == 7 then Some(Week)
    else if n == 30 then Some(Month)
    else if n == 365 then Some(Year)
    else None
  }

  /** Raw values identify periods: from and back to the raw value is the identity. */
  lemma PeriodRawValueRoundTrip(p: AnalyticsPeriod)
    ensures PeriodFromRawValue(p.RawValue()) == Some(p)
    ensures p in AllPeriods
  {
  }
}

=== FILE: calendar.dfy ===
/** Calendar day utilities (TrackioApp/Helpers/DateHelpers.swift).

    The Gregorian calendar of the device is abstracted to a fixed local time
    line without daylight-saving shifts: an instant is a whole number of
    seconds of local wall-clock time since a local midnight epoch
    (1970-01-01, a Thursday), and a calendar day is an integer day number. */
module Calendar {

  /** Seconds of local wall-clock time since the epoch. */
  type Instant = int

  /** Day number; day 0 is the epoch day. */
  type Day = int

  const SecondsPerDay: int := 86400

  /** The day an instant falls on (floor division, also before the epoch). */
  function DayOf(t: Instant): Day {
    t / SecondsPerDay
  }

  /** The first instant (midnight) of a day. */
  function DayStart(d: Day): Instant {
    d * SecondsPerDay
  }

  /** `Date.startOfDay` / `Calendar.startOfDay(for:)`: midnight of the day of `t`. */
  function StartOfDay(t: Instant): (r: Instant)
    ensures r <= t < r + SecondsPerDay
    ensures r % SecondsPerDay == 0
  {
    DayStart(DayOf(t))
  }

  /** An instant that is already a canonical day boundary. */
  predicate IsDayStart(t: Instant) {
    StartOfDay(t) == t
  }

  /** `calendar.date(byAdding: .day, value: n, to: t)`. */
  function AddDays(t: Instant, n: int): Instant {
    t + n * SecondsPerDay
  }

  /** Seconds since the start of the instant's day. */
  function TimeOfDay(t: Instant): (r: int)
    ensures 0 <= r < SecondsPerDay
  {
    t - StartOfDay(t)
  }

  /** `calendar.dateComponents([.day], from: a, to: b).day`: whole days
      elapsed from `a` to `b`, truncated toward zero. */
  function WholeDaysBetween(a: Instant, b: Instant): int {
    if a <= b then (b - a) / SecondsPerDay else -((a - b) / SecondsPerDay)
  }

  lemma StartOfDayIdempotent(t: Instant)
    ensures StartOfDay(StartOfDay(t)) == StartOfDay(t)
    ensures IsDayStart(StartOfDay(t))
  {
    DayOfDayStart(DayOf(t));
  }

  lemma DayOfDayStart(d: Day)
    ensures DayOf(DayStart(d)) == d
    ensures IsDayStart(DayStart(d))
  {
  }

  /** Adding whole days moves the day number by the same amount and keeps
      the time of day. */
  lemma DayOfAddDays(t: Instant, n: int)
    ensures DayOf(AddDays(t, n)) == DayOf(t) + n
    ensures StartOfDay(AddDays(t, n)) == DayStart(DayOf(t) + n)
  {
    var q := t / SecondsPerDay;
    var r := t % SecondsPerDay;
    assert t == q * SecondsPerDay + r;
    assert AddDays(t, n) == (q + n) * SecondsPerDay + r;
  }

  /** Whole days elapsed, read off from bounds on the elapsed seconds. */
  lemma WholeDaysFromBounds(x: int, q: int)
    requires q * SecondsPerDay <= x < (q + 1) * SecondsPerDay
    ensures x / SecondsPerDay == q
  {
  }

  /** Canonical day boundaries are exactly the multiples of a day. */
  lemma IsDayStartIff(t: Instant)
    ensures IsDayStart(t) <==> t % SecondsPerDay == 0
  {
  }

  /** `calendar.component(.weekday, from:)`, Sunday = 1 ... Saturday = 7. */
  function Weekday(d: Day): (w: int)
    ensures 1 <= w <= 7
  {
    (d + 4) % 7 + 1
  }

  /** The abbreviated weekday names the app keys its maps by ("EEE" in an
      English locale). */
  datatype DayLabel = Sun | Mon | Tue | Wed | Thu | Fri | Sat {

    /** The spelling used as a dictionary key. */
    function Text(): string {
      match this
      case Sun => "Sun" case Mon => "Mon" case Tue => "Tue" case Wed => "Wed"
      case Thu => "Thu" case Fri => "Fri" case Sat => "Sat"
    }

    /** The weekday number, Sunday = 1. */
    function Number(): int {
      match this
      case Sun => 1 case Mon => 2 case Tue => 3 case Wed => 4
      case Thu => 5 case Fri => 6 case Sat => 7
    }
  }

  /** `["Sun", "Mon", "Tue", "Wed", "Thu", "Fri", "Sat"]`, Sunday first. */
  const WeekdayLabels: seq<DayLabel> := [Sun, Mon, Tue, Wed, Thu, Fri, Sat]

  /** Every label appears in the list, at the position of its number. */
  lemma EveryLabelListed()
    ensures forall l: DayLabel :: l in WeekdayLabels && WeekdayLabels[l.Number() - 1] == l
  {
    forall l: DayLabel ensures l in WeekdayLabels && WeekdayLabels[l.Number() - 1] == l {
      match l
      case Sun => case Mon => case Tue => case Wed => case Thu => case Fri => case Sat =>
    }
  }

  /** The label of a weekday number. */
  function LabelOfWeekday(w: int): (l: DayLabel)
    requires 1 <= w <= 7
    ensures l.Number() == w
  {
    WeekdayLabels[w - 1]
  }

  /** The "EEE" label of a day. */
  function Label(d: Day): DayLabel {
    LabelOfWeekday(Weekday(d))
  }

  /** Days less than a week apart fall on different weekdays. */
  lemma WeekdaysDistinct(d: Day, e: Day)
    requires d < e < d + 7
    ensures Weekday(d) != Weekday(e)
    ensures Label(d) != Label(e)
  {
  }

  /** Within the seven days ending on `d`, every label occurs. */
  lemma LabelWithinWeek(d: Day, l: DayLabel) returns (k: int)
    ensures 0 <= k < 7 && Label(d - k) == l
  {
    var r, t := (d + 4) % 7, l.Number() - 1;
    var q := (d + 4) / 7;
    assert d + 4 == 7 * q + r;
    k := if r >= t then r - t else r - t + 7;
    var q' := if r >= t then q else q - 1;
    assert d - k + 4 == 7 * q' + t;
    assert Weekday(d - k) == l.Number();
    EveryLabelListed();
  }

  /** `Date.dates(in:)`: the instants `lo`, `lo + 1 day`, ... strictly below
      `hi`, in order. */
  method DatesIn(lo: Instant, hi: Instant) returns (dates: seq<Instant>)
    ensures lo >= hi ==> dates == []
    ensures lo < hi ==> |dates| > 0 && dates[0] == lo
    ensures forall i :: 0 <= i < |dates| ==> dates[i] == AddDays(lo, i) && dates[i] < hi
    ensures forall i :: 0 < i < |dates| ==> dates[i] == AddDays(dates[i - 1], 1)
    ensures AddDays(lo, |dates|) >= hi
  {
    dates := [];
    var date := lo;
    while date < hi
      invariant date == AddDays(lo, |dates|)
      invariant forall i :: 0 <= i < |dates| ==> dates[i] == AddDays(lo, i) && dates[i] < hi
      decreases hi - date
    {
      dates := dates + [date];
      date := AddDays(date, 1);
    }
  }
}

=== FILE: dashboard.dfy ===
/** The dashboard (TrackioApp/ViewModels/Analytics/DashboardViewModel.swift):
    its recomputation of per-habit analytics and overall metrics, as a pure
    function of the store, the selected period and the current instant. */
module Dashboard {
  import opened Wrappers
  import opened Calendar
  import opened Numeric
  import opened Sets
  import opened Habits
  import opened HabitStats
  import opened HabitStore
  import opened AnalyticsModels
  import opened AnalyticsHelpers

  // ---------------------------------------------------------------- per-habit analytics

  /** The analytics entry the dashboard builds for habit `h`: the completion
      count is `h`'s own, every other figure is looked up by `h`'s id. */
  function AnalyticsOf(hs: seq<Habit>, h: Habit, period: AnalyticsPeriod, now: Instant, monthAgo: Instant): HabitAnalytics {
    HabitAnalytics(
      h.id, h.title, h.emoji, h.color,
      GetCompletionRate(hs, h.id, now, period.Days()),
      GetStreak(hs, h.id, now),
      GetLongestStreak(hs, h.id, now),
      |h.completedDates|,
      GetWeekdayDistribution(hs, h.id),
      GetMonthlyProgress(hs, h.id, now, monthAgo))
  }

  /** `habitAnalytics`: one entry per habit, in store order. */
  function CalculateHabitAnalytics(hs: seq<Habit>, period: AnalyticsPeriod, now: Instant, monthAgo: Instant)
    : (xs: seq<HabitAnalytics>)
    ensures |xs| == |hs|
    ensures forall i :: 0 <= i < |hs| ==>
              && xs[i].habitId == hs[i].id && xs[i].title == hs[i].title
              && xs[i].emoji == hs[i].emoji && xs[i].color == hs[i].color
              && xs[i].totalCompletions == |hs[i].completedDates|
              && 0.0 <= xs[i].completionRate <= 100.0
              && xs[i].longestStreak <= LookbackDays + 1
  {
    seq(|hs|, i requires 0 <= i < |hs| => AnalyticsOf(hs, hs[i], period, now, monthAgo))
  }

  /** With unique ids every entry holds the statistics of its own habit. */
  lemma AnalyticsOfOwnHabit(hs: seq<Habit>, period: AnalyticsPeriod, now: Instant, monthAgo: Instant, i: int)
    requires UniqueIds(hs)
    requires 0 <= i < |hs|
    ensures var a := CalculateHabitAnalytics(hs, period, now, monthAgo)[i];
            var dates := hs[i].completedDates;
            && a.completionRate == CompletionRate(dates, DayOf(now), period.Days())
            && a.currentStreak == CurrentStreak(dates, DayOf(now))
            && a.longestStreak == LongestStreak(dates, DayOf(now))
            && a.weekdayDistribution == WeekdayDistribution(dates)
            && a.monthlyProgress == MonthlyProgress(dates, now, monthAgo)
  {
    FindUnique(hs, i);
  }

  /** `habitAnalytics.firstIndex(where: { $0.habitId == id })`. */
  function AnalyticsIndex(xs: seq<HabitAnalytics>, id: HabitId): (r: Option<nat>)
    ensures r.None? <==> forall i :: 0 <= i < |xs| ==> xs[i].habitId != id
    ensures r.Some? ==> r.value < |xs| && xs[r.value].habitId == id
    ensures r.Some? ==> forall j :: 0 <= j < r.value ==> xs[j].habitId != id
    decreases |xs|
  {
    if |xs| == 0 then None
    else if xs[0].habitId == id then Some(0)
    else match AnalyticsIndex(xs[1..], id)
      case None => None
      case Some(i) => Some(i + 1)
  }

  /** `getHabitAnalytics(for:)`: the first entry with the habit id. */
  function GetHabitAnalytics(xs: seq<HabitAnalytics>, id: HabitId): (r: Option<HabitAnalytics>)
    ensures r.None? <==> forall i :: 0 <= i < |xs| ==> xs[i].habitId != id
    ensures r.Some? ==> r.value.habitId == id
    ensures r.Some? ==> exists i :: 0 <= i < |xs| && xs[i] == r.value
                          && forall j :: 0 <= j < i ==> xs[j].habitId != id
  {
    match AnalyticsIndex(xs, id)
    case None => None
    case Some(i) => Some(xs[i])
  }

  /** With unique ids the dashboard finds each habit's own entry. */
  lemma GetHabitAnalyticsFindsOwn(hs: seq<Habit>, period: AnalyticsPeriod, now: Instant, monthAgo: Instant, i: int)
    requires UniqueIds(hs)
    requires 0 <= i < |hs|
    ensures var xs := CalculateHabitAnalytics(hs, period, now, monthAgo);
            GetHabitAnalytics(xs, hs[i].id) == Some(xs[i])
  {
    var xs := CalculateHabitAnalytics(hs, period, now, monthAgo);
    var r := AnalyticsIndex(xs, hs[i].id);
    assert xs[i].habitId == hs[i].id;
    assert r == Some(i);
  }

  // ---------------------------------------------------------------- active habits

  /** `calculateActiveHabits`: how many habits have a current streak. */
  function CalculateActiveHabits(hs: seq<Habit>, now: Instant): (n: nat)
    ensures n <= |hs|
    ensures n > 0 <==> exists i :: 0 <= i < |hs| && GetStreak(hs, hs[i].id, now) > 0
  {
    var active := set i | 0 <= i < |hs| && GetStreak(hs, hs[i].id, now) > 0;
    IndexSetBound(active, |hs|);
    assert active != {} ==> exists i :: 0 <= i < |hs| && GetStreak(hs, hs[i].id, now) > 0 by {
      if active != {} {
        var i := Pick(active);
      }
    }
    assert (exists i :: 0 <= i < |hs| && GetStreak(hs, hs[i].id, now) > 0) ==> |active| > 0 by {
      if exists i :: 0 <= i < |hs| && GetStreak(hs, hs[i].id, now) > 0 {
        var i :| 0 <= i < |hs| && GetStreak(hs, hs[i].id, now) > 0;
        assert i in active;
      }
    }
    |active|
  }

  /** Whether each habit, position by position, has a live streak. */
  function Streaking(hs: seq<Habit>, now: Instant): (b: seq<bool>)
    ensures |b| == |hs|
    ensures forall i :: 0 <= i < |hs| ==> (b[i] <==> GetStreak(hs, hs[i].id, now) > 0)
  {
    seq(|hs|, i requires 0 <= i < |hs| => GetStreak(hs, hs[i].id, now) > 0)
  }

  /** `calculateActiveStreaks`: the same filter as `calculateActiveHabits`,
      here counted entry by entry; the two counts always agree. */
  function CalculateActiveStreaks(hs: seq<Habit>, now: Instant): (n: nat)
    ensures n <= |hs|
    ensures n > 0 <==> exists i :: 0 <= i < |hs| && GetStreak(hs, hs[i].id, now) > 0
    ensures n == CalculateActiveHabits(hs, now)
  {
    var b := Streaking(hs, now);
    CountTruePositive(b);
    StreakingCount(hs, now);
    CountTrue(b)
  }

  /** Counting the streaking entries one by one gives the size of the set
      of streaking positions. */
  lemma StreakingCount(hs: seq<Habit>, now: Instant)
    ensures CountTrue(Streaking(hs, now)) == CalculateActiveHabits(hs, now)
  {
    var b := Streaking(hs, now);
    CountTrueIsIndexSet(b);
    assert (set i | 0 <= i < |b| && b[i]) == (set i | 0 <= i < |hs| && GetStreak(hs, hs[i].id, now) > 0);
  }

  /** How many habits have the day `d` completed. */
  function CompletedOn(hs: seq<Habit>, d: Day): (n: nat)
    ensures n <= |hs|
  {
    var done := set i | 0 <= i < |hs| && Done(hs[i].completedDates, d);
    IndexSetBound(done, |hs|);
    |done|
  }

  /** A habit has a current streak exactly when today is completed, so with
      unique ids the active habits are those completed today. */
  lemma ActiveHabitsCompletedToday(hs: seq<Habit>, now: Instant)
    requires UniqueIds(hs)
    ensures CalculateActiveHabits(hs, now) == CompletedOn(hs, DayOf(now))
  {
    var today := DayOf(now);
    forall i | 0 <= i < |hs|
      ensures GetStreak(hs, hs[i].id, now) > 0 <==> Done(hs[i].completedDates, today)
    {
      FindUnique(hs, i);
      var k := GetStreak(hs, hs[i].id, now);
      if k > 0 {
        assert today - k + 1 <= today <= today;
      }
    }
    assert (set i | 0 <= i < |hs| && GetStreak(hs, hs[i].id, now) > 0)
        == (set i | 0 <= i < |hs| && Done(hs[i].completedDates, today));
  }

  // ---------------------------------------------------------------- best habit

  /** Habit `i` has the largest 7-day rate, and every habit before it a
      smaller one: the element `max(by:)` returns. */
  predicate FirstMaximalRate(hs: seq<Habit>, now: Instant, i: int)
    requires 0 <= i < |hs|
  {
    && (forall j :: 0 <= j < |hs| ==>
          GetCompletionRate(hs, hs[j].id, now, DefaultWindow) <= GetCompletionRate(hs, hs[i].id, now, DefaultWindow))
    && (forall j :: 0 <= j < i ==>
          GetCompletionRate(hs, hs[j].id, now, DefaultWindow) < GetCompletionRate(hs, hs[i].id, now, DefaultWindow))
  }

  /** `findBestPerformingHabit`: the best performer's title, or the
      placeholder for an empty store. */
  function FindBestPerformingHabit(hs: seq<Habit>, now: Instant): (title: string)
    ensures |hs| == 0 ==> title == NoHabitsTitle
    ensures |hs| > 0 ==> exists i :: 0 <= i < |hs| && title == hs[i].title && FirstMaximalRate(hs, now, i)
  {
    match GetBestPerformingHabit(hs, now)
    case None => NoHabitsTitle
    case Some(h) =>
      var i := FirstArgMax(RatesOf(hs, now, DefaultWindow));
      assert h == hs[i] && FirstMaximalRate(hs, now, i);
      h.title
  }

  // ---------------------------------------------------------------- weekly trend

  /** The share of habits, in percent, that have day `d` completed. */
  function DayRate(hs: seq<Habit>, d: Day): (r: real)
    ensures 0.0 <= r <= 100.0
    ensures |hs| == 0 ==> r == 0.0
    ensures |hs| > 0 ==> r * (|hs| as real) == 100.0 * (CompletedOn(hs, d) as real)
  {
    if |hs| == 0 then 0.0
    else
      var n, c := |hs| as real, CompletedOn(hs, d) as real;
      assert c / n <= 1.0 by {
        assert c <= n;
      }
      (c / n) * 100.0
  }

  /** The trend after the first `n` passes of the loop over offsets
      6, 5, ..., 0 before today. */
  function TrendAfter(hs: seq<Habit>, today: Day, n: nat): map<DayLabel, real>
    requires n <= 7
  {
    if n == 0 then map[]
    else
      var off := 7 - n;
      TrendAfter(hs, today, n - 1)[Label(today - off) := DayRate(hs, today - off)]
  }

  lemma {:induction false} TrendAfterContents(hs: seq<Habit>, today: Day, n: nat)
    requires n <= 7
    ensures forall d :: today - 6 <= d <= today - 7 + n ==>
              Label(d) in TrendAfter(hs, today, n)
              && TrendAfter(hs, today, n)[Label(d)] == DayRate(hs, d)
  {
    if n > 0 {
      TrendAfterContents(hs, today, n - 1);
      var newest := today - 7 + n;
      forall d | today - 6 <= d < newest
        ensures Label(d) != Label(newest)
      {
        WeekdaysDistinct(d, newest);
      }
    }
  }

  /** `calculateWeeklyTrend`: every weekday label of the last seven days,
      valued at the share of habits completed on that day. */
  function CalculateWeeklyTrend(hs: seq<Habit>, now: Instant): (trend: map<DayLabel, real>)
    ensures forall l: DayLabel :: l in trend && 0.0 <= trend[l] <= 100.0
    ensures forall d :: DayOf(now) - 6 <= d <= DayOf(now) ==> trend[Label(d)] == DayRate(hs, d)
    ensures |hs| == 0 ==> forall l: DayLabel :: trend[l] == 0.0
  {
    var today := DayOf(now);
    var trend := TrendAfter(hs, today, 7);
    TrendAfterContents(hs, today, 7);
    assert forall l: DayLabel :: l in trend && 0.0 <= trend[l] <= 100.0 && (|hs| == 0 ==> trend[l] == 0.0) by {
      forall l: DayLabel ensures l in trend && 0.0 <= trend[l] <= 100.0 && (|hs| == 0 ==> trend[l] == 0.0) {
        var k := LabelWithinWeek(today, l);
        assert today - 6 <= today - k <= today;
      }
    }
    trend
  }

  // ---------------------------------------------------------------- max streak

  /** Every habit's longest streak, in store order, each looked up by id. */
  function LongestStreaks(hs: seq<Habit>, now: Instant): (xs: seq<int>)
    ensures |xs| == |hs|
    ensures forall i :: 0 <= i < |hs| ==> xs[i] == GetLongestStreak(hs, hs[i].id, now)
  {
    seq(|hs|, i requires 0 <= i < |hs| => GetLongestStreak(hs, hs[i].id, now))
  }

  /** `calculateMaxStreak`: the largest longest streak, 0 for no habits. */
  function CalculateMaxStreak(hs: seq<Habit>, now: Instant): (m: nat)
    ensures |hs| == 0 ==> m == 0
    ensures forall i :: 0 <= i < |hs| ==> GetLongestStreak(hs, hs[i].id, now) <= m
    ensures |hs| > 0 ==> exists i :: 0 <= i < |hs| && m == GetLongestStreak(hs, hs[i].id, now)
    ensures m <= LookbackDays + 1
  {
    var xs := LongestStreaks(hs, now);
    var m := MaxFold(xs);
    assert |hs| > 0 && m == 0 ==> xs[0] == 0;
    m
  }

  // ---------------------------------------------------------------- metrics

  /** What `calculateMetrics` publishes. */
  datatype DashboardState = DashboardState(habitAnalytics: seq<HabitAnalytics>, metrics: AnalyticsMetrics)

  /** The per-habit analytics carry, in store order, the rates the store
      reports over the selected period. */
  lemma AnalyticsRatesMatchStore(hs: seq<Habit>, period: AnalyticsPeriod, now: Instant, monthAgo: Instant)
    ensures Rates(CalculateHabitAnalytics(hs, period, now, monthAgo)) == RatesOf(hs, now, period.Days())
  {
    var xs := CalculateHabitAnalytics(hs, period, now, monthAgo);
    var rates := RatesOf(hs, now, period.Days());
    forall i | 0 <= i < |xs| ensures Rates(xs)[i] == rates[i] {
      assert xs[i] == AnalyticsOf(hs, hs[i], period, now, monthAgo);
    }
  }

  /** The overall figures of `calculateMetrics`, over a window of `days` days. */
  function OverallMetrics(hs: seq<Habit>, now: Instant, days: int): (m: AnalyticsMetrics)
    requires days >= 1
    ensures m.totalHabits == |hs|
    ensures m.totalCompletions == TotalCompletions(hs)
    // active habits: the number of habits with a live streak, which with
    // unique ids is the number completed today
    ensures m.activeHabits == CalculateActiveHabits(hs, now) == m.totalActiveStreaks
    ensures UniqueIds(hs) ==> m.activeHabits == CompletedOn(hs, DayOf(now))
    ensures HasActiveHabits(m) <==> exists i :: 0 <= i < |hs| && GetStreak(hs, hs[i].id, now) > 0
    // average: the mean of the per-habit rates over the selected period
    ensures 0.0 <= m.averageCompletionRate <= 100.0
    ensures |hs| == 0 ==> m.averageCompletionRate == 0.0
    ensures |hs| > 0 ==> m.averageCompletionRate == Sum(RatesOf(hs, now, days)) / (|hs| as real)
    // best habit: the first habit with the maximal 7-day rate
    ensures |hs| == 0 ==> m.bestPerformingHabit == NoHabitsTitle
    ensures |hs| > 0 ==> exists i :: 0 <= i < |hs| && m.bestPerformingHabit == hs[i].title
                                       && FirstMaximalRate(hs, now, i)
    // trend: each of the last seven days' labels at that day's rate
    ensures forall l: DayLabel :: l in m.weeklyTrend && 0.0 <= m.weeklyTrend[l] <= 100.0
    ensures forall d :: DayOf(now) - 6 <= d <= DayOf(now) ==> m.weeklyTrend[Label(d)] == DayRate(hs, d)
    // max streak: the largest per-habit longest streak
    ensures forall i :: 0 <= i < |hs| ==> GetLongestStreak(hs, hs[i].id, now) <= m.maxStreak
    ensures |hs| > 0 ==> exists i :: 0 <= i < |hs| && m.maxStreak == GetLongestStreak(hs, hs[i].id, now)
    ensures |hs| == 0 ==> m.maxStreak == 0
  {
    assert UniqueIds(hs) ==> CalculateActiveHabits(hs, now) == CompletedOn(hs, DayOf(now)) by {
      if UniqueIds(hs) {
        ActiveHabitsCompletedToday(hs, now);
      }
    }
    AnalyticsMetrics(
      |hs|,
      CalculateActiveHabits(hs, now),
      GetAverageCompletionRate(hs, now, days),
      FindBestPerformingHabit(hs, now),
      TotalCompletions(hs),
      CalculateWeeklyTrend(hs, now),
      CalculateMaxStreak(hs, now),
      CalculateActiveStreaks(hs, now))
  }

  /** `calculateMetrics`: the analytics list and the overall figures over
      the selected period; the average is also the mean of the list's rates. */
  function CalculateMetrics(hs: seq<Habit>, period: AnalyticsPeriod, now: Instant, monthAgo: Instant)
    : (s: DashboardState)
    ensures s.habitAnalytics == CalculateHabitAnalytics(hs, period, now, monthAgo)
    ensures s.metrics == OverallMetrics(hs, now, period.Days())
    ensures s.metrics.averageCompletionRate == AverageCompletionRate(s.habitAnalytics)
  {
    AnalyticsRatesMatchStore(hs, period, now, monthAgo);
    DashboardState(CalculateHabitAnalytics(hs, period, now, monthAgo), OverallMetrics(hs, now, period.Days()))
  }

  /** With unique ids, today's trend entry is the share of active habits. */
  lemma TrendTodayIsActiveShare(hs: seq<Habit>, now: Instant)
    requires UniqueIds(hs)
    requires |hs| > 0
    ensures CalculateWeeklyTrend(hs, now)[Label(DayOf(now))]
            == (CalculateActiveHabits(hs, now) as real) / (|hs| as real) * 100.0
  {
    var today := DayOf(now);
    assert CalculateWeeklyTrend(hs, now)[Label(today)] == DayRate(hs, today);
    ActiveHabitsCompletedToday(hs, now);
  }

  /** The best habit depends on the store and the instant only, not on the
      selected period. */
  lemma BestHabitIgnoresPeriod(hs: seq<Habit>, p: AnalyticsPeriod, q: AnalyticsPeriod, now: Instant, monthAgo: Instant)
    ensures CalculateMetrics(hs, p, now, monthAgo).metrics.bestPerformingHabit
            == CalculateMetrics(hs, q, now, monthAgo).metrics.bestPerformingHabit
  {
  }

  /** An empty store yields the empty metrics, except that the trend holds
      all seven days at 0, which sorts the same as the empty trend. */
  lemma EmptyStoreMetrics(period: AnalyticsPeriod, now: Instant, monthAgo: Instant)
    ensures var s := CalculateMetrics([], period, now, monthAgo);
            && s.habitAnalytics == []
            && s.metrics == EmptyMetrics().(weeklyTrend := s.metrics.weeklyTrend)
            && (forall l: DayLabel :: l in s.metrics.weeklyTrend && s.metrics.weeklyTrend[l] == 0.0)
            && WeeklyTrendSorted(s.metrics) == WeeklyTrendSorted(EmptyMetrics())
  {
    var s := CalculateMetrics([], period, now, monthAgo);
    WeeklyTrendSortedByValues(s.metrics, EmptyMetrics());
  }

  // ---------------------------------------------------------------- completion trend

  /** One point of `getCompletionTrend`. */
  datatype TrendPoint = TrendPoint(date: Instant, completed: bool)

  /** `getCompletionTrend(for:)`: one point per day of the selected period,
      oldest first and ending today, flagged when the day is completed. */
  method GetCompletionTrend(h: Habit, period: AnalyticsPeriod, now: Instant) returns (trend: seq<TrendPoint>)
    ensures |trend| == period.Days()
    ensures forall i :: 0 <= i < |trend| ==> trend[i].date == DayStart(DayOf(now) - period.Days() + 1 + i)
    ensures forall i :: 0 <= i < |trend| ==> (trend[i].completed <==> trend[i].date in h.completedDates)
    ensures forall i :: 0 < i < |trend| ==> trend[i].date == AddDays(trend[i - 1].date, 1)
    ensures trend[|trend| - 1].date == StartOfDay(now)
  {
    var days := period.Days();
    var today := StartOfDay(now);
    trend := [];
    var dayOffset := days - 1;
    while dayOffset >= 0
      invariant -1 <= dayOffset <= days - 1
      invariant |trend| == days - 1 - dayOffset
      invariant forall i :: 0 <= i < |trend| ==>
                  trend[i] == TrendPoint(DayStart(DayOf(now) - days + 1 + i), DayStart(DayOf(now) - days + 1 + i) in h.completedDates)
    {
      var date := AddDays(today, -dayOffset);
      var startOfDay := StartOfDay(date);
      assert startOfDay == DayStart(DayOf(now) - dayOffset) by {
        DayOfDayStart(DayOf(now));
        DayOfAddDays(today, -dayOffset);
      }
      trend := trend + [TrendPoint(startOfDay, startOfDay in h.completedDates)];
      dayOffset := dayOffset - 1;
    }
  }
}

=== FILE: data_export.dfy ===
/** The export record and its summary (TrackioApp/Utilities/DataExportManager.swift). */
module DataExport {
  import opened Calendar
  import opened Numeric
  import opened Habits
  import opened HabitStore
  import opened AnalyticsModels
  import opened AnalyticsHelpers

  /** `HabitExportData`: the habits and their analytics, stamped with the
      export instant. */
  datatype HabitExportData = HabitExportData(exportDate: Instant, habits: seq<Habit>, analytics: seq<HabitAnalytics>)

  /** `ExportSummary`. */
  datatype ExportSummary = ExportSummary(totalHabits: int, totalCompletions: int, averageCompletionRate: real)

  /** `summary`: habit count, completion total, and the mean analytics rate
      (0 with no analytics). */
  function Summary(d: HabitExportData): (s: ExportSummary)
    ensures s.totalHabits == |d.habits|
    ensures s.totalCompletions == TotalCompletions(d.habits)
    ensures |d.analytics| == 0 ==> s.averageCompletionRate == 0.0
    ensures |d.analytics| > 0 ==> s.averageCompletionRate == Sum(Rates(d.analytics)) / (|d.analytics| as real)
  {
    ExportSummary(|d.habits|, TotalCompletions(d.habits), AverageCompletionRate(d.analytics))
  }

  /** The summary does not depend on when the export was made. */
  lemma SummaryIgnoresExportDate(d: HabitExportData, t: Instant)
    ensures Summary(d.(exportDate := t)) == Summary(d)
  {
  }

  /** The summary's average agrees with the collection helper and, like it,
      is a percentage when every rate is. */
  lemma SummaryAverageIsPercentage(d: HabitExportData)
    requires forall i :: 0 <= i < |d.analytics| ==> 0.0 <= d.analytics[i].completionRate <= 100.0
    ensures 0.0 <= Summary(d).averageCompletionRate <= 100.0
  {
    if |d.analytics| > 0 {
      AverageWithinRates(d.analytics, 0.0, 100.0);
    }
  }

  /** Exporting a reordered store gives the same summary. */
  lemma SummaryIgnoresOrder(d: HabitExportData, e: HabitExportData)
    requires multiset(d.habits) == multiset(e.habits)
    requires multiset(d.analytics) == multiset(e.analytics)
    ensures Summary(d) == Summary(e)
  {
    assert |d.habits| == |multiset(d.habits)| == |e.habits|;
    AverageIgnoresOrder(d.analytics, e.analytics);
    TotalCompletionsPermutation(d.habits, e.habits);
  }
}

=== FILE: habit.dfy ===
/** The habit record (TrackioApp/Models/Habit.swift): identity equality,
    the initialiser's defaults, and the keyed coding whose decoder
    normalises every completion instant to its start of day. */
module Habits {
  import opened Wrappers
  import opened Calendar
  import Sets

  /** `UUID`, abstracted to a number; generating a fresh one is left to the caller. */
  type HabitId = nat

  /** sRGB components as stored under the colour keys. */
  datatype Rgba = Rgba(red: real, green: real, blue: real, opacity: real)

  /** SwiftUI `Color`, opaque to the core: the named colours the app uses
      and colours rebuilt from stored components. */
  datatype Color = Blue | Green | Purple | Orange | Srgb(components: Rgba)

  const DefaultColor: Color := Blue

  datatype Habit = Habit(
    id: HabitId,
    title: string,
    description: string,
    emoji: string,
    completedDates: set<Instant>,
    color: Color)

  /** `Habit.==`: two habits are the same habit when their ids agree. */
  predicate SameHabit(a: Habit, b: Habit) {
    a.id == b.id
  }

  /** `Habit.init(title:description:emoji:color:completedDates:)`; the id is
      the fresh `UUID()` the caller supplies. */
  function NewHabit(id: HabitId, title: string, description: string, emoji: string,
                    color: Color := DefaultColor, completedDates: set<Instant> := {}): (h: Habit)
    ensures h.id == id && h.title == title && h.description == description && h.emoji == emoji
    ensures h.color == color && h.completedDates == completedDates
  {
    Habit(id, title, description, emoji, completedDates, color)
  }

  /** Identity equality is an equivalence that ignores every field but the id. */
  lemma SameHabitIsIdentity(a: Habit, b: Habit, title: string, description: string, emoji: string,
                            dates: set<Instant>, color: Color)
    ensures SameHabit(a, a)
    ensures SameHabit(a, b) <==> SameHabit(b, a)
    ensures SameHabit(a, b) <==> a.id == b.id
    ensures SameHabit(a, a.(title := title, description := description, emoji := emoji,
                            completedDates := dates, color := color))
  {
  }

  /** The initialiser called without colour and dates yields a blue habit with no completions. */
  lemma NewHabitDefaults(id: HabitId, title: string, description: string, emoji: string)
    ensures NewHabit(id, title, description, emoji).color == Blue
    ensures NewHabit(id, title, description, emoji).completedDates == {}
  {
  }

  /** Every element of the set is a canonical day boundary. */
  predicate Normalised(dates: set<Instant>) {
    forall t :: t in dates ==> IsDayStart(t)
  }

  /** Each raw completion instant projected to its start of day. */
  function Normalise(raw: set<Instant>): (days: set<Instant>)
    ensures Normalised(days)
    ensures forall t :: t in raw ==> StartOfDay(t) in days
    ensures forall d :: d in days ==> exists t :: t in raw && StartOfDay(t) == d
  {
    var days := set t | t in raw :: StartOfDay(t);
    assert Normalised(days) by {
      forall d | d in days ensures IsDayStart(d) {
        var t :| t in raw && StartOfDay(t) == d;
        StartOfDayIdempotent(t);
      }
    }
    days
  }

  /** Projecting to days never enlarges the set. */
  lemma {:induction false} NormaliseNoLarger(raw: set<Instant>)
    ensures |Normalise(raw)| <= |raw|
    decreases |raw|
  {
    if raw != {} {
      var t := Sets.Pick(raw);
      var rest := raw - {t};
      NormaliseNoLarger(rest);
      assert Normalise(raw) == Normalise(rest) + {StartOfDay(t)};
    }
  }

  /** Normalising changes nothing exactly when the set is already normalised. */
  lemma NormaliseFixpoint(dates: set<Instant>)
    ensures Normalise(dates) == dates <==> Normalised(dates)
  {
    if Normalised(dates) {
      forall t | t in dates ensures t in Normalise(dates) {
        assert StartOfDay(t) == t;
      }
      forall d | d in Normalise(dates) ensures d in dates {
        var t :| t in dates && StartOfDay(t) == d;
        assert IsDayStart(t);
      }
    }
  }

  /** The keyed container a habit is encoded to: a key is `None` when absent. */
  datatype HabitRecord = HabitRecord(
    id: Option<HabitId>,
    title: Option<string>,
    description: Option<string>,
    emoji: Option<string>,
    completedDates: Option<set<Instant>>,
    colorRed: Option<real>,
    colorGreen: Option<real>,
    colorBlue: Option<real>,
    colorOpacity: Option<real>)

  /** `DecodingError.keyNotFound` for the named coding key. */
  datatype DecodeError = KeyNotFound(key: string)

  function Require<T>(field: Option<T>, key: string): Result<T, DecodeError> {
    match field
    case Some(v) => Success(v)
    case None => Failure(KeyNotFound(key))
  }

  /** `Habit.init(from:)`: the required keys in declaration order, completion
      instants projected to their start of day, and the colour rebuilt from
      its four components when `colorRed` is present, else the default blue. */
  function Decode(rec: HabitRecord): (r: Result<Habit, DecodeError>)
    ensures r.Failure? <==>
              (|| rec.id.None? || rec.title.None? || rec.description.None? || rec.emoji.None?
               || rec.completedDates.None?
               || (rec.colorRed.Some? && (rec.colorGreen.None? || rec.colorBlue.None? || rec.colorOpacity.None?)))
    ensures r.Success? ==> Normalised(r.value.completedDates)
    ensures r.Success? ==> rec.completedDates.Some? && |r.value.completedDates| <= |rec.completedDates.value|
    ensures r.Success? ==>
              && r.value.id == rec.id.value && r.value.title == rec.title.value
              && r.value.description == rec.description.value && r.value.emoji == rec.emoji.value
              && r.value.completedDates == Normalise(rec.completedDates.value)
    ensures rec.colorRed.None? && r.Success? ==> r.value.color == Blue
    ensures rec.colorRed.Some? && r.Success? ==>
              r.value.color == Srgb(Rgba(rec.colorRed.value, rec.colorGreen.value, rec.colorBlue.value, rec.colorOpacity.value))
  {
    var id :- Require(rec.id, "id");
    var title :- Require(rec.title, "title");
    var description :- Require(rec.description, "description");
    var emoji :- Require(rec.emoji, "emoji");
    var raw :- Require(rec.completedDates, "completedDates");
    var color :-
      if rec.colorRed.Some? then
        var red := rec.colorRed.value;
        var green :- Require(rec.colorGreen, "colorGreen");
        var blue :- Require(rec.colorBlue, "colorBlue");
        var opacity :- Require(rec.colorOpacity, "colorOpacity");
        Success(Srgb(Rgba(red, green, blue, opacity)))
      else
        Success(Blue);
    NormaliseNoLarger(raw);
    Success(Habit(id, title, description, emoji, Normalise(raw), color))
  }

  /** `Habit.encode(to:)`: every key written; the colour as the components
      the platform reports for it (`UIColor.getRed`, a parameter here). */
  function Encode(h: Habit, rgba: Color -> Rgba): (rec: HabitRecord)
    ensures rec.id == Some(h.id) && rec.completedDates == Some(h.completedDates)
    ensures rec.title == Some(h.title) && rec.description == Some(h.description) && rec.emoji == Some(h.emoji)
    ensures rec.colorRed == Some(rgba(h.color).red) && rec.colorGreen == Some(rgba(h.color).green)
    ensures rec.colorBlue == Some(rgba(h.color).blue) && rec.colorOpacity == Some(rgba(h.color).opacity)
  {
    var c := rgba(h.color);
    HabitRecord(Some(h.id), Some(h.title), Some(h.description), Some(h.emoji),
                Some(h.completedDates), Some(c.red), Some(c.green), Some(c.blue), Some(c.opacity))
  }

  /** Encoding then decoding keeps id, title, description and emoji, turns
      the colour into its components, and keeps the completion set exactly
      when it was already day-normalised. */
  lemma RoundTrip(h: Habit, rgba: Color -> Rgba)
    ensures Decode(Encode(h, rgba)).Success?
    ensures var d := Decode(Encode(h, rgba)).value;
            && d.id == h.id && d.title == h.title && d.description == h.description && d.emoji == h.emoji
            && d.color == Srgb(rgba(h.color))
            && d.completedDates == Normalise(h.completedDates)
            && (d.completedDates == h.completedDates <==> Normalised(h.completedDates))
  {
    NormaliseFixpoint(h.completedDates);
  }

  /** A record written before colours were stored (no colour keys) decodes
      to the habit it names, in the default blue, with its completion
      instants projected to their days. */
  lemma DecodeWithoutColor(rec: HabitRecord)
    requires rec.id.Some? && rec.title.Some? && rec.description.Some? && rec.emoji.Some?
    requires rec.completedDates.Some? && rec.colorRed.None?
    ensures Decode(rec) == Success(Habit(rec.id.value, rec.title.value, rec.description.value, rec.emoji.value,
                                         Normalise(rec.completedDates.value), DefaultColor))
  {
  }
}

=== FILE: habit_stats.dfy ===
/** Per-habit statistics derived from a habit's completion set
    (TrackioApp/ViewModels/HabitStore.swift, the analytics section): current
    streak, longest streak over the bounded look-back, trailing completion
    rate, weekday distribution and the dense monthly progress map. Each is a
    pure function of the completion set and the current day. */
module HabitStats {
  import opened Calendar
  import opened Numeric
  import Sets

  /** The habit was completed on day `d`: the day's canonical start is in the set. */
  predicate Done(dates: set<Instant>, d: Day) {
    DayStart(d) in dates
  }

  /** Every day from `a` through `b` is completed (vacuously true when a > b). */
  ghost predicate AllDone(dates: set<Instant>, a: Day, b: Day) {
    forall d :: a <= d <= b ==> Done(dates, d)
  }

  // ---------------------------------------------------------------- current streak

  /** Completions up to and including day `d`. */
  function Through(dates: set<Instant>, d: Day): set<Instant> {
    set t | t in dates && t <= DayStart(d)
  }

  lemma ThroughShrinks(dates: set<Instant>, d: Day)
    requires Done(dates, d)
    ensures |Through(dates, d - 1)| < |Through(dates, d)|
  {
    assert DayStart(d) !in Through(dates, d - 1);
    Sets.ProperSubsetSmaller(Through(dates, d - 1), Through(dates, d));
  }

  /** `getStreak`: consecutive completed days walking back from `today`,
      stopping at the first day not completed; no other bound. */
  function CurrentStreak(dates: set<Instant>, today: Day): (k: nat)
    ensures k <= |Through(dates, today)|
    decreases |Through(dates, today)|
  {
    if Done(dates, today) then
      ThroughShrinks(dates, today);
      1 + CurrentStreak(dates, today - 1)
    else
      0
  }

  /** The streak is a run of completed days ending today, preceded by a gap. */
  lemma {:induction false} CurrentStreakIsRun(dates: set<Instant>, today: Day)
    ensures AllDone(dates, today - CurrentStreak(dates, today) + 1, today)
    ensures !Done(dates, today - CurrentStreak(dates, today))
    decreases |Through(dates, today)|
  {
    if Done(dates, today) {
      ThroughShrinks(dates, today);
      CurrentStreakIsRun(dates, today - 1);
    }
  }

  /** Conversely, a run of `k` completed days ending today after a gap is the streak. */
  lemma {:induction false} CurrentStreakOfRun(dates: set<Instant>, today: Day, k: nat)
    requires AllDone(dates, today - k + 1, today)
    requires !Done(dates, today - k)
    ensures CurrentStreak(dates, today) == k
    decreases k
  {
    if k > 0 {
      assert Done(dates, today);
      CurrentStreakOfRun(dates, today - 1, k - 1);
    }
  }

  // ---------------------------------------------------------------- longest streak

  /** How many days before today the longest-streak scan looks (it visits 366 days). */
  const LookbackDays: nat := 365

  /** Completed days from `d` upward without a gap, not counting past `top`:
      the running counter of the backward scan when it reaches `d`. */
  function RunFrom(dates: set<Instant>, d: Day, top: Day): (n: nat)
    ensures n <= if d > top then 0 else top - d + 1
    decreases top - d
  {
    if d > top || !Done(dates, d) then 0 else 1 + RunFrom(dates, d + 1, top)
  }

  /** The largest `RunFrom` over the start days `d`..`top`. */
  function BestRunFrom(dates: set<Instant>, d: Day, top: Day): (n: nat)
    ensures n <= if d > top then 0 else top - d + 1
    decreases top - d
  {
    if d > top then 0 else Max(RunFrom(dates, d, top), BestRunFrom(dates, d + 1, top))
  }

  /** `getLongestStreak`: the longest run of completed days among today and
      the `LookbackDays` days before it. */
  function LongestStreak(dates: set<Instant>, today: Day): (n: nat)
    ensures n <= LookbackDays + 1
  {
    BestRunFrom(dates, today - LookbackDays, today)
  }

  lemma {:induction false} RunFromIsRun(dates: set<Instant>, d: Day, top: Day)
    ensures AllDone(dates, d, d + RunFrom(dates, d, top) - 1)
    decreases top - d
  {
    if d <= top && Done(dates, d) {
      RunFromIsRun(dates, d + 1, top);
    }
  }

  lemma {:induction false} RunFromCovers(dates: set<Instant>, a: Day, b: Day, top: Day)
    requires a <= b <= top
    requires AllDone(dates, a, b)
    ensures RunFrom(dates, a, top) >= b - a + 1
    decreases b - a
  {
    if a < b {
      RunFromCovers(dates, a + 1, b, top);
    }
  }

  lemma {:induction false} BestRunFromAbove(dates: set<Instant>, d: Day, e: Day, top: Day)
    requires d <= e <= top
    ensures RunFrom(dates, e, top) <= BestRunFrom(dates, d, top)
    decreases e - d
  {
    if d < e {
      BestRunFromAbove(dates, d + 1, e, top);
    }
  }

  lemma {:induction false} BestRunFromWitness(dates: set<Instant>, d: Day, top: Day) returns (e: Day)
    requires d <= top
    ensures d <= e <= top && RunFrom(dates, e, top) == BestRunFrom(dates, d, top)
    decreases top - d
  {
    if d == top || RunFrom(dates, d, top) >= BestRunFrom(dates, d + 1, top) {
      e := d;
    } else {
      e := BestRunFromWitness(dates, d + 1, top);
    }
  }

  /** The longest streak is an actual run of completed days inside the window. */
  lemma LongestStreakIsRun(dates: set<Instant>, today: Day) returns (a: Day)
    ensures var n := LongestStreak(dates, today);
            today - LookbackDays <= a && a + n - 1 <= today && AllDone(dates, a, a + n - 1)
  {
    a := BestRunFromWitness(dates, today - LookbackDays, today);
    RunFromIsRun(dates, a, today);
  }

  /** No run of completed days inside the window is longer than the longest streak. */
  lemma LongestStreakIsMaximal(dates: set<Instant>, today: Day, a: Day, b: Day)
    requires today - LookbackDays <= a <= b <= today
    requires AllDone(dates, a, b)
    ensures b - a + 1 <= LongestStreak(dates, today)
  {
    RunFromCovers(dates, a, b, today);
    BestRunFromAbove(dates, today - LookbackDays, a, today);
  }

  /** The longest streak is at least the current streak, as far as the window reaches. */
  lemma LongestStreakCoversCurrent(dates: set<Instant>, today: Day)
    ensures LongestStreak(dates, today) >= Min(CurrentStreak(dates, today), LookbackDays + 1)
  {
    var m := Min(CurrentStreak(dates, today), LookbackDays + 1);
    if m > 0 {
      CurrentStreakIsRun(dates, today);
      LongestStreakIsMaximal(dates, today, today - m + 1, today);
    }
  }

  // ---------------------------------------------------------------- completion rate

  /** Number of completed days in `lo`..`hi`. */
  function CountDone(dates: set<Instant>, lo: Day, hi: Day): (n: nat)
    ensures n <= if hi < lo then 0 else hi - lo + 1
    decreases hi - lo
  {
    if hi < lo then 0 else CountDone(dates, lo, hi - 1) + (if Done(dates, hi) then 1 else 0)
  }

  /** The completed days in `lo`..`hi`, as a set. */
  function DoneDays(dates: set<Instant>, lo: Day, hi: Day): set<Day> {
    set d | lo <= d <= hi && Done(dates, d)
  }

  lemma {:induction false} CountDoneIsSize(dates: set<Instant>, lo: Day, hi: Day)
    ensures CountDone(dates, lo, hi) == |DoneDays(dates, lo, hi)|
    decreases hi - lo
  {
    if hi < lo {
      assert DoneDays(dates, lo, hi) == {};
    } else {
      CountDoneIsSize(dates, lo, hi - 1);
      if Done(dates, hi) {
        assert DoneDays(dates, lo, hi) == DoneDays(dates, lo, hi - 1) + {hi};
      } else {
        assert DoneDays(dates, lo, hi) == DoneDays(dates, lo, hi - 1);
      }
    }
  }

  /** `getCompletionRate(days:)`: completed days among the last `days` days
      through today, divided by `days`, times 100. */
  function CompletionRate(dates: set<Instant>, today: Day, days: int): (r: real)
    requires days >= 1
    ensures 0.0 <= r <= 100.0
  {
    var c := CountDone(dates, today - days + 1, today);
    DivAtMostOne(c as real, days as real);
    (c as real) / (days as real) * 100.0
  }

  /** The rate times the window length is 100 times the number of completed
      days in the window; the denominator never shrinks. */
  lemma CompletionRateCounts(dates: set<Instant>, today: Day, days: int)
    requires days >= 1
    ensures CompletionRate(dates, today, days) * (days as real)
            == 100.0 * (|DoneDays(dates, today - days + 1, today)| as real)
  {
    CountDoneIsSize(dates, today - days + 1, today);
  }

  // ---------------------------------------------------------------- weekday distribution

  /** Completion instants falling on weekday `w` (Sunday = 1). */
  function OnWeekday(dates: set<Instant>, w: int): set<Instant> {
    set t | t in dates && Weekday(DayOf(t)) == w
  }

  /** `getWeekdayDistribution`: for each weekday label, the raw number of
      completions on that weekday over the whole history. */
  function WeekdayDistribution(dates: set<Instant>): (m: map<DayLabel, real>)
    ensures forall l: DayLabel :: l in m && m[l] == |OnWeekday(dates, l.Number())| as real
  {
    EveryLabelListed();
    map l | l in WeekdayLabels :: |OnWeekday(dates, l.Number())| as real
  }

  function UpToWeekday(dates: set<Instant>, w: int): set<Instant> {
    set t | t in dates && Weekday(DayOf(t)) <= w
  }

  function WeekdayTotal(dates: set<Instant>, w: nat): nat {
    if w == 0 then 0 else WeekdayTotal(dates, w - 1) + |OnWeekday(dates, w)|
  }

  lemma {:induction false} WeekdayPartition(dates: set<Instant>, w: nat)
    ensures |UpToWeekday(dates, w)| == WeekdayTotal(dates, w)
  {
    if w == 0 {
      assert UpToWeekday(dates, w) == {};
    } else {
      WeekdayPartition(dates, w - 1);
      assert UpToWeekday(dates, w) == UpToWeekday(dates, w - 1) + OnWeekday(dates, w);
      Sets.DisjointUnionSize(UpToWeekday(dates, w - 1), OnWeekday(dates, w));
    }
  }

  /** The seven counts add up to the number of completions. */
  lemma WeekdayDistributionTotal(dates: set<Instant>)
    ensures var m := WeekdayDistribution(dates);
            m[Sun] + m[Mon] + m[Tue] + m[Wed] + m[Thu] + m[Fri] + m[Sat]
            == |dates| as real
  {
    WeekdayPartition(dates, 7);
    assert UpToWeekday(dates, 7) == dates;
    var c1, c2, c3, c4 := |OnWeekday(dates, 1)|, |OnWeekday(dates, 2)|, |OnWeekday(dates, 3)|, |OnWeekday(dates, 4)|;
    var c5, c6, c7 := |OnWeekday(dates, 5)|, |OnWeekday(dates, 6)|, |OnWeekday(dates, 7)|;
    assert WeekdayTotal(dates, 1) == c1;
    assert WeekdayTotal(dates, 2) == c1 + c2;
    assert WeekdayTotal(dates, 3) == c1 + c2 + c3;
    assert WeekdayTotal(dates, 4) == c1 + c2 + c3 + c4;
    assert WeekdayTotal(dates, 5) == c1 + c2 + c3 + c4 + c5;
    assert WeekdayTotal(dates, 6) == c1 + c2 + c3 + c4 + c5 + c6;
    assert WeekdayTotal(dates, 7) == c1 + c2 + c3 + c4 + c5 + c6 + c7;
  }

  // ---------------------------------------------------------------- monthly progress

  /** Dense 0/1 map over the canonical starts of days `first`..`last`. */
  function ProgressSpan(dates: set<Instant>, first: Day, last: Day): map<Instant, int> {
    map t | DayStart(first) <= t <= DayStart(last) && IsDayStart(t) :: if t in dates then 1 else 0
  }

  /** Last day the monthly walk reaches: it steps one day at a time from
      `monthAgo` while the instant is not after `now`. */
  function MonthlyLastDay(now: Instant, monthAgo: Instant): Day {
    if monthAgo <= now then DayOf(monthAgo) + (now - monthAgo) / SecondsPerDay else DayOf(monthAgo) - 1
  }

  /** `getMonthlyProgress`: every day from the day of `monthAgo` up to the
      walk's end, mapped to 1 when completed and 0 otherwise. */
  function MonthlyProgress(dates: set<Instant>, now: Instant, monthAgo: Instant): (m: map<Instant, int>)
    ensures forall t :: t in m ==> IsDayStart(t) && DayStart(DayOf(monthAgo)) <= t
    ensures forall t :: t in m ==> (m[t] == 1 <==> t in dates) && (m[t] == 0 <==> t !in dates)
  {
    ProgressSpan(dates, DayOf(monthAgo), MonthlyLastDay(now, monthAgo))
  }

  /** The map has exactly one key per day of the span, valued by completion. */
  lemma MonthlyProgressDense(dates: set<Instant>, now: Instant, monthAgo: Instant, d: Day)
    ensures var m := MonthlyProgress(dates, now, monthAgo);
            && (DayStart(d) in m <==> DayOf(monthAgo) <= d <= MonthlyLastDay(now, monthAgo))
            && (DayStart(d) in m ==> m[DayStart(d)] == if Done(dates, d) then 1 else 0)
    ensures forall t :: t in MonthlyProgress(dates, now, monthAgo) ==> IsDayStart(t)
  {
    DayOfDayStart(d);
  }

  /** When "a month ago" has the same time of day as now or an earlier one
      (calendar-month subtraction keeps the time of day), the span ends today. */
  lemma MonthlyProgressEndsToday(now: Instant, monthAgo: Instant)
    requires monthAgo <= now
    requires TimeOfDay(monthAgo) <= TimeOfDay(now)
    ensures MonthlyLastDay(now, monthAgo) == DayOf(now)
  {
    var dm, dn := DayOf(monthAgo), DayOf(now);
    var rm, rn := TimeOfDay(monthAgo), TimeOfDay(now);
    assert monthAgo == dm * SecondsPerDay + rm;
    assert now == dn * SecondsPerDay + rn;
    assert now - monthAgo == (dn - dm) * SecondsPerDay + (rn - rm);
    assert (now - monthAgo) / SecondsPerDay == dn - dm;
  }
}

=== FILE: habit_store.dfy ===
/** The habit store (TrackioApp/ViewModels/HabitStore.swift): the ordered
    habit list with its create/update/delete/toggle operations, the look-up
    by id that every query starts with, and the queries themselves. The
    store is a value: each operation returns the new list. The current
    instant `now` (`Date()`) and, for the monthly map, the instant one
    calendar month earlier are parameters. */
module HabitStore {
  import opened Wrappers
  import opened Calendar
  import opened Numeric
  import opened Habits
  import opened HabitStats
  import opened Sets

  // ---------------------------------------------------------------- partial updates

  /** `Habit.Updates`: `None` leaves a field as it is. */
  datatype Updates = Updates(
    title: Option<string>,
    description: Option<string>,
    emoji: Option<string>,
    color: Option<Color>)

  const NoUpdates: Updates := Updates(None, None, None, None)

  /** `Habit.apply(_:)`: overwrite exactly the fields given in `u`. */
  function Apply(h: Habit, u: Updates): (r: Habit)
    ensures r.id == h.id && r.completedDates == h.completedDates
    ensures u.title.Some? ==> r.title == u.title.value
    ensures u.title.None? ==> r.title == h.title
    ensures u.description.Some? ==> r.description == u.description.value
    ensures u.description.None? ==> r.description == h.description
    ensures u.emoji.Some? ==> r.emoji == u.emoji.value
    ensures u.emoji.None? ==> r.emoji == h.emoji
    ensures u.color.Some? ==> r.color == u.color.value
    ensures u.color.None? ==> r.color == h.color
  {
    h.(title := u.title.GetOr(h.title),
       description := u.description.GetOr(h.description),
       emoji := u.emoji.GetOr(h.emoji),
       color := u.color.GetOr(h.color))
  }

  /** Applying nothing changes nothing, and applying the same update twice
      is the same as applying it once. */
  lemma ApplyLaws(h: Habit, u: Updates)
    ensures Apply(h, NoUpdates) == h
    ensures Apply(Apply(h, u), u) == Apply(h, u)
    ensures SameHabit(Apply(h, u), h)
  {
  }

  // ---------------------------------------------------------------- look-up

  /** `habits.firstIndex(where: { $0.id == id })`. */
  function FirstIndex(hs: seq<Habit>, id: HabitId): (r: Option<nat>)
    ensures r.None? <==> forall i :: 0 <= i < |hs| ==> hs[i].id != id
    ensures r.Some? ==> r.value < |hs| && hs[r.value].id == id
    ensures r.Some? ==> forall j :: 0 <= j < r.value ==> hs[j].id != id
    decreases |hs|
  {
    if |hs| == 0 then None
    else if hs[0].id == id then Some(0)
    else match FirstIndex(hs[1..], id)
      case None => None
      case Some(i) => Some(i + 1)
  }

  /** `habits.first(where: { $0.id == id })`. */
  function Find(hs: seq<Habit>, id: HabitId): (r: Option<Habit>)
    ensures r.None? <==> forall i :: 0 <= i < |hs| ==> hs[i].id != id
    ensures r.Some? ==> r.value in hs && r.value.id == id
    ensures r.Some? ==> exists i :: 0 <= i < |hs| && hs[i] == r.value
                          && forall j :: 0 <= j < i ==> hs[j].id != id
  {
    match FirstIndex(hs, id)
    case None => None
    case Some(i) => Some(hs[i])
  }

  /** Ids are unique, as freshly generated UUIDs are. */
  ghost predicate UniqueIds(hs: seq<Habit>) {
    forall i, j :: 0 <= i < j < |hs| ==> hs[i].id != hs[j].id
  }

  /** With unique ids, looking up a habit's id finds that habit. */
  lemma FindUnique(hs: seq<Habit>, i: int)
    requires UniqueIds(hs)
    requires 0 <= i < |hs|
    ensures FirstIndex(hs, hs[i].id) == Some(i)
    ensures Find(hs, hs[i].id) == Some(hs[i])
  {
  }

  /** Two lists with the same ids position by position look ids up alike. */
  lemma SameIdsSameIndex(hs: seq<Habit>, gs: seq<Habit>, id: HabitId)
    requires |hs| == |gs|
    requires forall j :: 0 <= j < |hs| ==> hs[j].id == gs[j].id
    ensures FirstIndex(hs, id) == FirstIndex(gs, id)
  {
  }

  // ---------------------------------------------------------------- mutations

  /** `addHabit`: append at the end. */
  function AddHabit(hs: seq<Habit>, h: Habit): (r: seq<Habit>)
    ensures |r| == |hs| + 1 && r[..|hs|] == hs && r[|hs|] == h
  {
    hs + [h]
  }

  /** Adding a habit with a fresh id keeps ids unique and makes it findable. */
  lemma AddHabitFresh(hs: seq<Habit>, h: Habit)
    requires UniqueIds(hs)
    requires Find(hs, h.id).None?
    ensures UniqueIds(AddHabit(hs, h))
    ensures Find(AddHabit(hs, h), h.id) == Some(h)
  {
    FindUnique(AddHabit(hs, h), |hs|);
  }

  /** `updateHabit`: apply the update to the first habit with the id; no-op
      when there is none. */
  function UpdateHabit(hs: seq<Habit>, id: HabitId, u: Updates): (r: seq<Habit>)
    ensures |r| == |hs|
    ensures forall j :: 0 <= j < |hs| ==> r[j].id == hs[j].id && r[j].completedDates == hs[j].completedDates
    ensures FirstIndex(hs, id).None? ==> r == hs
    ensures FirstIndex(hs, id).Some? ==>
              var i := FirstIndex(hs, id).value;
              r[i] == Apply(hs[i], u) && forall j :: 0 <= j < |hs| && j != i ==> r[j] == hs[j]
  {
    match FirstIndex(hs, id)
    case None => hs
    case Some(i) => hs[i := Apply(hs[i], u)]
  }

  /** `deleteHabit`: `removeAll { $0.id == id }`, keeping the order of the rest. */
  function DeleteHabit(hs: seq<Habit>, id: HabitId): (r: seq<Habit>)
    ensures forall h :: h in r <==> h in hs && h.id != id
    ensures |r| <= |hs|
    ensures (forall i :: 0 <= i < |hs| ==> hs[i].id != id) ==> r == hs
    decreases |hs|
  {
    if |hs| == 0 then []
    else (if hs[0].id == id then [] else [hs[0]]) + DeleteHabit(hs[1..], id)
  }

  /** Deleting from a list with a known head: the head survives exactly
      when its id differs. */
  lemma DeleteHabitCons(h: Habit, t: seq<Habit>, id: HabitId)
    ensures DeleteHabit([h] + t, id) == (if h.id == id then [] else [h]) + DeleteHabit(t, id)
  {
    assert ([h] + t)[0] == h && ([h] + t)[1..] == t;
  }

  /** Deleting from `a` and from `a + b` both start with `a`'s head. */
  lemma DeleteHabitHead(a: seq<Habit>, b: seq<Habit>, id: HabitId)
    requires |a| > 0
    ensures var head := if a[0].id == id then [] else [a[0]];
            && DeleteHabit(a + b, id) == head + DeleteHabit(a[1..] + b, id)
            && DeleteHabit(a, id) == head + DeleteHabit(a[1..], id)
  {
    assert a + b == [a[0]] + (a[1..] + b);
    DeleteHabitCons(a[0], a[1..] + b, id);
    assert a == [a[0]] + a[1..];
    DeleteHabitCons(a[0], a[1..], id);
  }

  /** Deleting works element by element: it distributes over concatenation,
      so the survivors keep their relative order. */
  lemma {:induction false} DeleteHabitDistributes(a: seq<Habit>, b: seq<Habit>, id: HabitId)
    ensures DeleteHabit(a + b, id) == DeleteHabit(a, id) + DeleteHabit(b, id)
    decreases |a|
  {
    if |a| == 0 {
      assert a + b == b;
    } else {
      DeleteHabitHead(a, b, id);
      DeleteHabitDistributes(a[1..], b, id);
      var head := if a[0].id == id then [] else [a[0]];
      Associative(head, DeleteHabit(a[1..], id), DeleteHabit(b, id));
    }
  }

  /** Deleting a habit that was just added with a fresh id restores the list. */
  lemma DeleteUndoesAdd(hs: seq<Habit>, h: Habit)
    requires Find(hs, h.id).None?
    ensures DeleteHabit(AddHabit(hs, h), h.id) == hs
  {
    DeleteHabitDistributes(hs, [h], h.id);
    assert DeleteHabit([h], h.id) == [];
  }

  /** Flip membership of one instant. */
  function Flip(dates: set<Instant>, t: Instant): (r: set<Instant>)
    ensures t in r <==> t !in dates
    ensures forall x :: x != t ==> (x in r <==> x in dates)
  {
    if t in dates then dates - {t} else dates + {t}
  }

  /** `toggleHabit`: flip the start of `date`'s day in the first habit with the
      id; no-op when there is none. */
  function ToggleHabit(hs: seq<Habit>, id: HabitId, date: Instant): (r: seq<Habit>)
    ensures |r| == |hs|
    ensures forall j :: 0 <= j < |hs| ==> r[j].id == hs[j].id
    ensures FirstIndex(hs, id).None? ==> r == hs
    ensures FirstIndex(hs, id).Some? ==>
              var i := FirstIndex(hs, id).value;
              && r[i] == hs[i].(completedDates := Flip(hs[i].completedDates, StartOfDay(date)))
              && forall j :: 0 <= j < |hs| && j != i ==> r[j] == hs[j]
  {
    match FirstIndex(hs, id)
    case None => hs
    case Some(i) =>
      var h := hs[i];
      hs[i := h.(completedDates := Flip(h.completedDates, StartOfDay(date)))]
  }

  /** Toggling the same day twice restores the list. */
  lemma ToggleTwice(hs: seq<Habit>, id: HabitId, a: Instant, b: Instant)
    requires StartOfDay(a) == StartOfDay(b)
    ensures ToggleHabit(ToggleHabit(hs, id, a), id, b) == hs
  {
    var once := ToggleHabit(hs, id, a);
    SameIdsSameIndex(hs, once, id);
    var twice := ToggleHabit(once, id, b);
    if FirstIndex(hs, id).Some? {
      var i := FirstIndex(hs, id).value;
      assert twice[i].completedDates == hs[i].completedDates;
      assert twice == hs;
    }
  }

  /** Every habit's completion set holds canonical day boundaries only. */
  ghost predicate AllNormalised(hs: seq<Habit>) {
    forall i :: 0 <= i < |hs| ==> Normalised(hs[i].completedDates)
  }

  /** Toggling keeps every completion set day-normalised. */
  lemma ToggleKeepsNormalised(hs: seq<Habit>, id: HabitId, date: Instant)
    requires AllNormalised(hs)
    ensures AllNormalised(ToggleHabit(hs, id, date))
  {
    StartOfDayIdempotent(date);
  }

  /** Store-wide shape invariant (unique ids, normalised sets) is kept by
      every mutation. */
  lemma MutationsKeepInvariant(hs: seq<Habit>, id: HabitId, u: Updates, date: Instant)
    requires UniqueIds(hs) && AllNormalised(hs)
    ensures UniqueIds(UpdateHabit(hs, id, u)) && AllNormalised(UpdateHabit(hs, id, u))
    ensures UniqueIds(DeleteHabit(hs, id)) && AllNormalised(DeleteHabit(hs, id))
    ensures UniqueIds(ToggleHabit(hs, id, date)) && AllNormalised(ToggleHabit(hs, id, date))
  {
    ToggleKeepsNormalised(hs, id, date);
    DeleteKeepsInvariant(hs, id);
  }

  lemma {:induction false} DeleteKeepsInvariant(hs: seq<Habit>, id: HabitId)
    requires UniqueIds(hs) && AllNormalised(hs)
    ensures UniqueIds(DeleteHabit(hs, id)) && AllNormalised(DeleteHabit(hs, id))
    decreases |hs|
  {
    if |hs| > 0 {
      DeleteKeepsInvariant(hs[1..], id);
      var r := DeleteHabit(hs, id);
      var tail := DeleteHabit(hs[1..], id);
      forall j | 0 <= j < |tail| ensures tail[j].id != hs[0].id {
        assert tail[j] in hs[1..];
      }
      forall i | 0 <= i < |r| ensures Normalised(r[i].completedDates) {
        assert r[i] in hs;
      }
    }
  }

  // ---------------------------------------------------------------- queries

  /** `getCompletionRate`'s default window. */
  const DefaultWindow: int := 7

  /** `getStreak(for:)`: 0 for an unknown id; otherwise the current streak of
      the first habit with the id. */
  function GetStreak(hs: seq<Habit>, id: HabitId, now: Instant): (k: nat)
    ensures Find(hs, id).None? ==> k == 0
    ensures Find(hs, id).Some? ==>
              var dates := Find(hs, id).value.completedDates;
              AllDone(dates, DayOf(now) - k + 1, DayOf(now)) && !Done(dates, DayOf(now) - k)
  {
    match Find(hs, id)
    case None => 0
    case Some(h) =>
      CurrentStreakIsRun(h.completedDates, DayOf(now));
      CurrentStreak(h.completedDates, DayOf(now))
  }

  /** `getLongestStreak(for:)`: 0 for an unknown id; otherwise the longest
      run inside the 366-day look-back. */
  function GetLongestStreak(hs: seq<Habit>, id: HabitId, now: Instant): (n: nat)
    ensures Find(hs, id).None? ==> n == 0
    ensures n <= LookbackDays + 1
    ensures n >= Min(GetStreak(hs, id, now), LookbackDays + 1)
    ensures Find(hs, id).Some? ==> n == LongestStreak(Find(hs, id).value.completedDates, DayOf(now))
  {
    match Find(hs, id)
    case None => 0
    case Some(h) =>
      LongestStreakCoversCurrent(h.completedDates, DayOf(now));
      LongestStreak(h.completedDates, DayOf(now))
  }

  /** `getCompletionRate(for:days:)`: 0 for an unknown id; otherwise the
      percentage of completed days among the last `days` days. */
  function GetCompletionRate(hs: seq<Habit>, id: HabitId, now: Instant, days: int): (r: real)
    requires days >= 1
    ensures 0.0 <= r <= 100.0
    ensures Find(hs, id).None? ==> r == 0.0
    ensures Find(hs, id).Some? ==>
              var dates := Find(hs, id).value.completedDates;
              r * (days as real) == 100.0 * (|DoneDays(dates, DayOf(now) - days + 1, DayOf(now))| as real)
  {
    match Find(hs, id)
    case None => 0.0
    case Some(h) =>
      CompletionRateCounts(h.completedDates, DayOf(now), days);
      CompletionRate(h.completedDates, DayOf(now), days)
  }

  /** `getWeekdayDistribution(for:)`: empty for an unknown id; otherwise all
      seven labels with raw counts adding up to the number of completions. */
  function GetWeekdayDistribution(hs: seq<Habit>, id: HabitId): (m: map<DayLabel, real>)
    ensures Find(hs, id).None? ==> m == map[]
    ensures Find(hs, id).Some? ==>
              && (forall l: DayLabel :: l in m)
              && m[Sun] + m[Mon] + m[Tue] + m[Wed] + m[Thu] + m[Fri] + m[Sat]
                 == |Find(hs, id).value.completedDates| as real
    ensures Find(hs, id).Some? ==> m == WeekdayDistribution(Find(hs, id).value.completedDates)
  {
    match Find(hs, id)
    case None => map[]
    case Some(h) =>
      WeekdayDistributionTotal(h.completedDates);
      WeekdayDistribution(h.completedDates)
  }

  /** `getMonthlyProgress(for:)`: empty for an unknown id; otherwise one key
      per day of the walk from `monthAgo` to `now`, valued 1 or 0. */
  function GetMonthlyProgress(hs: seq<Habit>, id: HabitId, now: Instant, monthAgo: Instant): (m: map<Instant, int>)
    ensures Find(hs, id).None? ==> m == map[]
    ensures Find(hs, id).Some? ==> m == MonthlyProgress(Find(hs, id).value.completedDates, now, monthAgo)
  {
    match Find(hs, id)
    case None => map[]
    case Some(h) => MonthlyProgress(h.completedDates, now, monthAgo)
  }

  /** Every habit's completion rate over a window of `days`, in store order,
      each looked up by the habit's id. */
  function RatesOf(hs: seq<Habit>, now: Instant, days: int): (rates: seq<real>)
    requires days >= 1
    ensures |rates| == |hs|
    ensures forall i :: 0 <= i < |hs| ==> rates[i] == GetCompletionRate(hs, hs[i].id, now, days)
  {
    seq(|hs|, i requires 0 <= i < |hs| => GetCompletionRate(hs, hs[i].id, now, days))
  }

  /** `getBestPerformingHabit`: `max(by:)` over the default 7-day rates. */
  function GetBestPerformingHabit(hs: seq<Habit>, now: Instant): (r: Option<Habit>)
    ensures r.None? <==> |hs| == 0
    ensures r.Some? ==> r.value in hs
  {
    if |hs| == 0 then None else Some(hs[FirstArgMax(RatesOf(hs, now, DefaultWindow))])
  }

  /** The best performer is the first habit whose 7-day rate is maximal. */
  lemma BestPerformingIsFirstMaximal(hs: seq<Habit>, now: Instant) returns (i: nat)
    requires |hs| > 0
    ensures i < |hs| && GetBestPerformingHabit(hs, now) == Some(hs[i])
    ensures forall j :: 0 <= j < |hs| ==>
              GetCompletionRate(hs, hs[j].id, now, DefaultWindow) <= GetCompletionRate(hs, hs[i].id, now, DefaultWindow)
    ensures forall j :: 0 <= j < i ==>
              GetCompletionRate(hs, hs[j].id, now, DefaultWindow) < GetCompletionRate(hs, hs[i].id, now, DefaultWindow)
  {
    i := FirstArgMax(RatesOf(hs, now, DefaultWindow));
  }

  /** `getTotalCompletions`: the sum of the completion-set sizes. */
  function TotalCompletions(hs: seq<Habit>): (n: nat)
    ensures forall i :: 0 <= i < |hs| ==> |hs[i].completedDates| <= n
    ensures n == 0 <==> forall i :: 0 <= i < |hs| ==> hs[i].completedDates == {}
  {
    if |hs| == 0 then 0
    else TotalCompletions(hs[..|hs| - 1]) + |hs[|hs| - 1].completedDates|
  }

  lemma {:induction false} TotalCompletionsAppend(a: seq<Habit>, b: seq<Habit>)
    ensures TotalCompletions(a + b) == TotalCompletions(a) + TotalCompletions(b)
    decreases |b|
  {
    if |b| == 0 {
      assert a + b == a;
    } else {
      assert (a + b)[..|a + b| - 1] == a + b[..|b| - 1];
      TotalCompletionsAppend(a, b[..|b| - 1]);
    }
  }

  /** Taking out the habit at `i` lowers the total by its count. */
  lemma TotalCompletionsRemoveAt(gs: seq<Habit>, i: int)
    requires 0 <= i < |gs|
    ensures TotalCompletions(gs) == TotalCompletions(gs[..i] + gs[i + 1..]) + |gs[i].completedDates|
  {
    var front, x, back := gs[..i], gs[i], gs[i + 1..];
    calc {
      TotalCompletions(gs);
      { SplitAt(gs, i); }
      TotalCompletions((front + [x]) + back);
      { TotalCompletionsAppend(front + [x], back); }
      TotalCompletions(front + [x]) + TotalCompletions(back);
      { TotalCompletionsAppend(front, [x]); }
      TotalCompletions(front) + TotalCompletions([x]) + TotalCompletions(back);
      { assert [x][..0] == []; }
      TotalCompletions(front) + TotalCompletions(back) + |x.completedDates|;
      { TotalCompletionsAppend(front, back); }
      TotalCompletions(front + back) + |x.completedDates|;
    }
  }

  /** The total does not depend on the order of the habits. */
  lemma {:induction false} TotalCompletionsPermutation(hs: seq<Habit>, gs: seq<Habit>)
    requires multiset(hs) == multiset(gs)
    ensures TotalCompletions(hs) == TotalCompletions(gs)
    decreases |hs|
  {
    if |hs| > 0 {
      var n := |hs| - 1;
      var h, hs' := hs[n], hs[..n];
      var i := MatchLast(hs, gs);
      var gs' := gs[..i] + gs[i + 1..];
      calc {
        TotalCompletions(hs);
        TotalCompletions(hs') + |h.completedDates|;
        { TotalCompletionsPermutation(hs', gs'); }
        TotalCompletions(gs') + |h.completedDates|;
        { TotalCompletionsRemoveAt(gs, i); }
        TotalCompletions(gs);
      }
    }
  }

  /** Replacing one habit changes the total by the difference of the two counts. */
  lemma {:induction false} TotalCompletionsReplace(hs: seq<Habit>, i: int, g: Habit)
    requires 0 <= i < |hs|
    ensures TotalCompletions(hs[i := g]) + |hs[i].completedDates| == TotalCompletions(hs) + |g.completedDates|
    decreases |hs|
  {
    var n := |hs| - 1;
    var r := hs[i := g];
    assert TotalCompletions(hs) == TotalCompletions(hs[..n]) + |hs[n].completedDates|;
    assert TotalCompletions(r) == TotalCompletions(r[..n]) + |r[n].completedDates|;
    if i == n {
      assert r[..n] == hs[..n];
    } else {
      TotalCompletionsReplace(hs[..n], i, g);
      assert r[..n] == hs[..n][i := g];
    }
  }

  /** Toggling a known habit changes the total by exactly one: up when the
      day was not completed, down when it was. */
  lemma ToggleChangesTotal(hs: seq<Habit>, id: HabitId, date: Instant)
    requires FirstIndex(hs, id).Some?
    ensures var i := FirstIndex(hs, id).value;
            var before, after := TotalCompletions(hs), TotalCompletions(ToggleHabit(hs, id, date));
            if StartOfDay(date) in hs[i].completedDates then after + 1 == before else after == before + 1
  {
    var i := FirstIndex(hs, id).value;
    var r := ToggleHabit(hs, id, date);
    assert r == hs[i := r[i]];
    TotalCompletionsReplace(hs, i, r[i]);
  }

  lemma RatesBounded(hs: seq<Habit>, now: Instant, days: int)
    requires days >= 1
    ensures forall i :: 0 <= i < |RatesOf(hs, now, days)| ==> 0.0 <= RatesOf(hs, now, days)[i] <= 100.0
  {
    var rates := RatesOf(hs, now, days);
    forall i | 0 <= i < |rates| ensures 0.0 <= rates[i] <= 100.0 {
      assert rates[i] == GetCompletionRate(hs, hs[i].id, now, days);
    }
  }

  lemma MeanOfRates(rates: seq<real>)
    requires forall i :: 0 <= i < |rates| ==> 0.0 <= rates[i] <= 100.0
    ensures 0.0 <= Mean(rates) <= 100.0
  {
    if |rates| > 0 {
      MeanBounds(rates, 0.0, 100.0);
    }
  }

  /** `getAverageCompletionRate(days:)`: the mean of the per-habit rates,
      0 for an empty store. */
  function GetAverageCompletionRate(hs: seq<Habit>, now: Instant, days: int): (r: real)
    requires days >= 1
    ensures 0.0 <= r <= 100.0
    ensures |hs| == 0 ==> r == 0.0
    ensures |hs| > 0 ==> r == Sum(RatesOf(hs, now, days)) / (|hs| as real)
  {
    RatesBounded(hs, now, days);
    MeanOfRates(RatesOf(hs, now, days));
    Mean(RatesOf(hs, now, days))
  }

  // ---------------------------------------------------------------- the source's loops

  /** `getStreak(for:)` as written: walk back from today while the day is in the set. */
  method ScanStreak(hs: seq<Habit>, id: HabitId, now: Instant) returns (streak: nat)
    ensures streak == GetStreak(hs, id, now)
  {
    var found := Find(hs, id);
    if found.None? {
      return 0;
    }
    var dates := found.value.completedDates;
    var today := DayOf(now);
    var currentDate := StartOfDay(now);
    streak := 0;
    while currentDate in dates
      invariant currentDate == DayStart(today - streak)
      invariant streak + CurrentStreak(dates, today - streak) == CurrentStreak(dates, today)
      decreases |Through(dates, today - streak)|
    {
      ThroughShrinks(dates, today - streak);
      streak := streak + 1;
      currentDate := AddDays(currentDate, -1);
    }
  }

  /** `getLongestStreak(for:)` as written: scan back from now with a running
      counter reset at gaps, stopping once the previous day lies more than
      `LookbackDays` whole days before now. */
  method ScanLongestStreak(hs: seq<Habit>, id: HabitId, now: Instant) returns (longest: nat)
    ensures longest == GetLongestStreak(hs, id, now)
  {
    var found := Find(hs, id);
    if found.None? {
      return 0;
    }
    var dates := found.value.completedDates;
    var today := DayOf(now);
    longest := 0;
    var current: nat := 0;
    var currentDate := now;
    ghost var k := 0;
    while true
      invariant 0 <= k <= LookbackDays
      invariant currentDate == AddDays(now, -k)
      invariant current == RunFrom(dates, today - k + 1, today)
      invariant longest == BestRunFrom(dates, today - k + 1, today)
      decreases LookbackDays - k
    {
      DayOfAddDays(now, -k);
      var startOfDay := StartOfDay(currentDate);
      if startOfDay in dates {
        current := current + 1;
        longest := Max(longest, current);
      } else {
        current := 0;
      }
      var previousDay := AddDays(currentDate, -1);
      currentDate := previousDay;
      WholeDaysFromBounds(now - previousDay, k + 1);
      if WholeDaysBetween(previousDay, now) > LookbackDays {
        break;
      }
      k := k + 1;
    }
  }

  /** `getCompletionRate(for:days:)` as written: walk the window forward
      from its first day to today, counting completed days. */
  method ScanCompletionRate(hs: seq<Habit>, id: HabitId, now: Instant, days: int) returns (rate: real)
    requires days >= 1
    ensures rate == GetCompletionRate(hs, id, now, days)
  {
    var found := Find(hs, id);
    if found.None? {
      return 0.0;
    }
    var dates := found.value.completedDates;
    var today := StartOfDay(now);
    var startDate := AddDays(today, -(days - 1));
    var date := startDate;
    var completedDays := 0;
    ghost var lo := DayOf(now) - days + 1;
    ghost var j := 0;
    while date <= today
      invariant 0 <= j <= days
      invariant date == DayStart(lo + j)
      invariant completedDays == CountDone(dates, lo, lo + j - 1)
      decreases today - date
    {
      if date in dates {
        completedDays := completedDays + 1;
      }
      date := AddDays(date, 1);
      j := j + 1;
    }
    rate := (completedDays as real) / (days as real) * 100.0;
  }

  /** One more day at the end of a dense progress span. */
  lemma ProgressSpanExtend(dates: set<Instant>, first: Day, last: Day)
    requires first - 1 <= last
    ensures ProgressSpan(dates, first, last)[DayStart(last + 1) := if DayStart(last + 1) in dates then 1 else 0]
            == ProgressSpan(dates, first, last + 1)
  {
    var a := ProgressSpan(dates, first, last)[DayStart(last + 1) := if DayStart(last + 1) in dates then 1 else 0];
    var b := ProgressSpan(dates, first, last + 1);
    DayOfDayStart(last + 1);
    forall t ensures t in a <==> t in b {
      IsDayStartIff(t);
    }
  }

  /** One step of the monthly walk: recording the day `j` days after
      `monthAgo` extends the span by that day. */
  lemma MonthlyWalkStep(dates: set<Instant>, monthAgo: Instant, j: nat)
    ensures var first, t := DayOf(monthAgo), StartOfDay(AddDays(monthAgo, j));
            ProgressSpan(dates, first, first + j - 1)[t := if t in dates then 1 else 0]
            == ProgressSpan(dates, first, first + j)
  {
    DayOfAddDays(monthAgo, j);
    ProgressSpanExtend(dates, DayOf(monthAgo), DayOf(monthAgo) + j - 1);
  }

  /** The walk stops once it has passed `now`: the last day it recorded is
      the span's last day. */
  lemma MonthlyWalkEnd(now: Instant, monthAgo: Instant, j: nat)
    requires AddDays(monthAgo, j) > now
    requires j > 0 ==> AddDays(monthAgo, j - 1) <= now
    ensures DayOf(monthAgo) + j - 1 == MonthlyLastDay(now, monthAgo)
  {
    if j > 0 {
      WholeDaysFromBounds(now - monthAgo, j - 1);
    }
  }

  /** The day loop of `getMonthlyProgress(for:)` as written: from
      `monthAgo`, one day at a time while not after `now`, record the day's
      start with 1 or 0. */
  method WalkMonthlyProgress(dates: set<Instant>, now: Instant, monthAgo: Instant)
    returns (progress: map<Instant, int>)
    ensures progress == MonthlyProgress(dates, now, monthAgo)
  {
    progress := map[];
    var date := monthAgo;
    ghost var first := DayOf(monthAgo);
    ghost var j := 0;
    assert ProgressSpan(dates, first, first - 1) == map[];
    while date <= now
      invariant 0 <= j
      invariant date == AddDays(monthAgo, j)
      invariant j > 0 ==> AddDays(monthAgo, j - 1) <= now
      invariant progress == ProgressSpan(dates, first, first + j - 1)
      decreases now - date
    {
      MonthlyWalkStep(dates, monthAgo, j);
      var startOfDay := StartOfDay(date);
      progress := progress[startOfDay := if startOfDay in dates then 1 else 0];
      date := AddDays(date, 1);
      j := j + 1;
    }
    MonthlyWalkEnd(now, monthAgo, j);
  }

  /** `getMonthlyProgress(for:)` as written: empty for an unknown id,
      otherwise the day walk over the found habit's completions. */
  method ScanMonthlyProgress(hs: seq<Habit>, id: HabitId, now: Instant, monthAgo: Instant)
    returns (progress: map<Instant, int>)
    ensures progress == GetMonthlyProgress(hs, id, now, monthAgo)
  {
    var found := Find(hs, id);
    if found.None? {
      return map[];
    }
    progress := WalkMonthlyProgress(found.value.completedDates, now, monthAgo);
  }
}

=== FILE: numeric.dfy ===
/** Arithmetic building blocks shared by the analytics: integer maximum,
    sums and means of rates, Swift's `max(by:)` selection, and the decimal
    rendering of `Int` in string interpolation. */
module Numeric {
  import opened Sets

  function Max(a: int, b: int): (m: int)
    ensures m >= a && m >= b
    ensures m == a || m == b
  {
    if a >= b then a else b
  }

  function Min(a: int, b: int): (m: int)
    ensures m <= a && m <= b
    ensures m == a || m == b
  {
    if a <= b then a else b
  }

  /** `reduce(0, +)`: the left fold of `+` over the rates. */
  function Sum(xs: seq<real>): real {
    if |xs| == 0 then 0.0 else Sum(xs[..|xs| - 1]) + xs[|xs| - 1]
  }

  /** The source's mean: 0 for an empty collection, else sum / count. */
  function Mean(xs: seq<real>): real {
    if |xs| == 0 then 0.0 else Sum(xs) / (|xs| as real)
  }

  lemma {:induction false} SumAppend(a: seq<real>, b: seq<real>)
    ensures Sum(a + b) == Sum(a) + Sum(b)
    decreases |b|
  {
    if |b| == 0 {
      assert a + b == a;
    } else {
      assert (a + b)[..|a + b| - 1] == a + b[..|b| - 1];
      assert (a + b)[|a + b| - 1] == b[|b| - 1];
      SumAppend(a, b[..|b| - 1]);
    }
  }

  /** Taking out the element at `i` lowers the sum by that element. */
  lemma SumRemoveAt(ys: seq<real>, i: int)
    requires 0 <= i < |ys|
    ensures Sum(ys) == Sum(ys[..i] + ys[i + 1..]) + ys[i]
  {
    var front, y, back := ys[..i], ys[i], ys[i + 1..];
    calc {
      Sum(ys);
      { SplitAt(ys, i); }
      Sum((front + [y]) + back);
      { SumAppend(front + [y], back); }
      Sum(front + [y]) + Sum(back);
      { SumAppend(front, [y]); }
      Sum(front) + Sum([y]) + Sum(back);
      { assert [y][..0] == []; }
      Sum(front) + Sum(back) + y;
      { SumAppend(front, back); }
      Sum(front + back) + y;
    }
  }

  /** The sum does not depend on the order of the elements. */
  lemma {:induction false} SumPermutation(xs: seq<real>, ys: seq<real>)
    requires multiset(xs) == multiset(ys)
    ensures Sum(xs) == Sum(ys)
    decreases |xs|
  {
    if |xs| > 0 {
      var n := |xs| - 1;
      var x, xs' := xs[n], xs[..n];
      var i := MatchLast(xs, ys);
      var ys' := ys[..i] + ys[i + 1..];
      calc {
        Sum(xs);
        Sum(xs') + x;
        { SumPermutation(xs', ys'); }
        Sum(ys') + x;
        { SumRemoveAt(ys, i); }
        Sum(ys);
      }
    }
  }

  /** Every element in [lo, hi] bounds the sum by count * lo and count * hi. */
  lemma {:induction false} SumBounds(xs: seq<real>, lo: real, hi: real)
    requires forall i :: 0 <= i < |xs| ==> lo <= xs[i] <= hi
    ensures (|xs| as real) * lo <= Sum(xs) <= (|xs| as real) * hi
    decreases |xs|
  {
    if |xs| > 0 {
      var init := xs[..|xs| - 1];
      var m := |init| as real;
      SumBounds(init, lo, hi);
      assert |xs| as real == m + 1.0;
      assert Sum(xs) == Sum(init) + xs[|xs| - 1];
      assert lo <= xs[|xs| - 1] <= hi;
      assert (m + 1.0) * lo == m * lo + lo;
      assert (m + 1.0) * hi == m * hi + hi;
    }
  }

  /** The mean lies between any lower and upper bound of the elements. */
  lemma MeanBounds(xs: seq<real>, lo: real, hi: real)
    requires |xs| > 0
    requires forall i :: 0 <= i < |xs| ==> lo <= xs[i] <= hi
    ensures lo <= Mean(xs) <= hi
  {
    SumBounds(xs, lo, hi);
    var n, s := |xs| as real, Sum(xs);
    assert s / n - lo == (s - n * lo) / n;
    assert hi - s / n == (n * hi - s) / n;
  }

  /** A part of a positive whole is a fraction in [0, 1]. */
  lemma DivAtMostOne(a: real, b: real)
    requires 0.0 <= a <= b && b > 0.0
    ensures 0.0 <= a / b <= 1.0
  {
    assert a / b * b == a;
  }

  /** The mean does not depend on the order of the elements. */
  lemma MeanPermutation(xs: seq<real>, ys: seq<real>)
    requires multiset(xs) == multiset(ys)
    ensures Mean(xs) == Mean(ys)
  {
    assert |xs| == |multiset(xs)| == |ys|;
    SumPermutation(xs, ys);
  }

  /** Index kept by Swift's `max(by: <)` after scanning `xs[..j]` with `best` as
      the running maximum: it moves only to a strictly greater element. */
  function ArgMaxFrom(xs: seq<real>, best: nat, j: nat): (i: nat)
    requires best < j <= |xs|
    requires forall k :: 0 <= k < j ==> xs[k] <= xs[best]
    requires forall k :: 0 <= k < best ==> xs[k] < xs[best]
    ensures best <= i < |xs|
    ensures forall k :: 0 <= k < |xs| ==> xs[k] <= xs[i]
    ensures forall k :: 0 <= k < i ==> xs[k] < xs[i]
    decreases |xs| - j
  {
    if j == |xs| then best
    else if xs[best] < xs[j] then ArgMaxFrom(xs, j, j + 1)
    else ArgMaxFrom(xs, best, j + 1)
  }

  /** The element `max(by: <)` returns: the first maximal one. */
  function FirstArgMax(xs: seq<real>): (i: nat)
    requires |xs| > 0
    ensures i < |xs|
    ensures forall k :: 0 <= k < |xs| ==> xs[k] <= xs[i]
    ensures forall k :: 0 <= k < i ==> xs[k] < xs[i]
  {
    ArgMaxFrom(xs, 0, 1)
  }

  /** `reduce(0) { max($0, $1) }`: the largest element, or 0 when that is larger. */
  function MaxFold(xs: seq<int>): (m: int)
    ensures |xs| == 0 ==> m == 0
    ensures m >= 0
    ensures forall i :: 0 <= i < |xs| ==> xs[i] <= m
    ensures m == 0 || exists i :: 0 <= i < |xs| && xs[i] == m
  {
    if |xs| == 0 then 0 else Max(MaxFold(xs[..|xs| - 1]), xs[|xs| - 1])
  }

  function DigitChar(d: nat): (c: char)
    requires d < 10
    ensures '0' <= c <= '9'
  {
    "0123456789"[d]
  }

  /** Decimal digits of a natural number, most significant first. */
  function NatToString(n: nat): (s: string)
    ensures |s| > 0
    ensures forall i :: 0 <= i < |s| ==> '0' <= s[i] <= '9'
    ensures |s| > 1 ==> s[0] != '0'
    decreases n
  {
    if n < 10 then [DigitChar(n)] else NatToString(n / 10) + [DigitChar(n % 10)]
  }

  /** Swift's `"\(n)"` for an `Int`. */
  function IntToString(n: int): string {
    if n < 0 then "-" + NatToString(-n) else NatToString(n)
  }

  /** Value of a string of decimal digits. */
  function DigitsValue(s: string): int
    decreases |s|
  {
    if |s| == 0 then 0 else DigitsValue(s[..|s| - 1]) * 10 + ((s[|s| - 1] as int) - ('0' as int))
  }

  /** Reading the digits back gives the number. */
  lemma {:induction false} NatToStringValue(n: nat)
    ensures DigitsValue(NatToString(n)) == n
    decreases n
  {
    var s := NatToString(n);
    if n < 10 {
      assert s[..0] == [];
    } else {
      NatToStringValue(n / 10);
      assert s[..|s| - 1] == NatToString(n / 10);
    }
  }
}

=== FILE: sets.dfy ===
/** Small facts about finite sets that the statistics proofs lean on. */
module Sets {

  /** Some element of a non-empty set. */
  lemma Pick<T>(s: set<T>) returns (x: T)
    requires s != {}
    ensures x in s
  {
    if forall y :: y !in s {
      assert false;
    }
    x :| x in s;
  }

  /** A proper subset has fewer elements. */
  lemma ProperSubsetSmaller<T>(a: set<T>, b: set<T>)
    requires a < b
    ensures |a| < |b|
  {
    assert b == a + (b - a);
    var x := Pick(b - a);
  }

  /** Cardinality of a union of disjoint sets. */
  lemma DisjointUnionSize<T>(a: set<T>, b: set<T>)
    requires a !! b
    ensures |a + b| == |a| + |b|
  {
  }

  /** A subset has no more elements. */
  lemma SubsetSmaller<T>(a: set<T>, b: set<T>)
    requires a <= b
    ensures |a| <= |b|
  {
    assert b == a + (b - a);
  }

  /** The indices 0 .. n-1. */
  function Range(n: nat): (r: set<int>)
    ensures forall i :: i in r <==> 0 <= i < n
  {
    if n == 0 then {} else Range(n - 1) + {n - 1}
  }

  lemma {:induction false} RangeSize(n: nat)
    ensures |Range(n)| == n
  {
    if n > 0 {
      RangeSize(n - 1);
    }
  }

  /** A set of indices below n has at most n elements. */
  lemma IndexSetBound(s: set<int>, n: nat)
    requires forall i :: i in s ==> 0 <= i < n
    ensures |s| <= n
  {
    RangeSize(n);
    SubsetSmaller(s, Range(n));
  }

  /** Taking the same element away from equal multisets leaves equal ones. */
  lemma MultisetCancel<T>(a: multiset<T>, b: multiset<T>, x: T)
    requires a + multiset{x} == b + multiset{x}
    ensures a == b
  {
    forall y ensures a[y] == b[y] {
      assert (a + multiset{x})[y] == (b + multiset{x})[y];
    }
  }

  /** Concatenation is associative. */
  lemma Associative<T>(x: seq<T>, y: seq<T>, z: seq<T>)
    ensures x + (y + z) == (x + y) + z
  {
  }

  /** A sequence is its prefix before `i`, its element at `i`, and the rest. */
  lemma SplitAt<T>(ys: seq<T>, i: int)
    requires 0 <= i < |ys|
    ensures ys == (ys[..i] + [ys[i]]) + ys[i + 1..]
  {
  }

  /** Removing the element at `i` takes exactly that element out of the
      sequence's multiset. */
  lemma MultisetRemoveAt<T>(ys: seq<T>, i: int)
    requires 0 <= i < |ys|
    ensures multiset(ys) == multiset(ys[..i] + ys[i + 1..]) + multiset{ys[i]}
  {
    SplitAt(ys, i);
  }

  /** For two sequences with the same multiset, the last element of the
      first occurs in the second, and removing the two occurrences leaves
      sequences with the same multiset again. */
  lemma MatchLast<T>(xs: seq<T>, ys: seq<T>) returns (i: int)
    requires |xs| > 0 && multiset(xs) == multiset(ys)
    ensures 0 <= i < |ys| && ys[i] == xs[|xs| - 1]
    ensures multiset(xs[..|xs| - 1]) == multiset(ys[..i] + ys[i + 1..])
  {
    var n := |xs| - 1;
    var x := xs[n];
    assert x in multiset(ys);
    i :| 0 <= i < |ys| && ys[i] == x;
    assert xs[..n] + xs[n + 1..] == xs[..n];
    MultisetRemoveAt(xs, n);
    MultisetRemoveAt(ys, i);
    MultisetCancel(multiset(xs[..n]), multiset(ys[..i] + ys[i + 1..]), x);
  }

  /** The number of `true` entries, counted one entry at a time from the
      back: the shape of Swift's `filter { … }.count`. */
  function CountTrue(b: seq<bool>): (n: nat)
    ensures n <= |b|
  {
    if |b| == 0 then 0 else CountTrue(b[..|b| - 1]) + (if b[|b| - 1] then 1 else 0)
  }

  /** Counting one entry at a time agrees with the size of the set of
      indices holding `true`. */
  lemma {:induction false} CountTrueIsIndexSet(b: seq<bool>)
    ensures CountTrue(b) == |set i | 0 <= i < |b| && b[i]|
  {
    if |b| > 0 {
      var n := |b| - 1;
      var front := b[..n];
      CountTrueIsIndexSet(front);
      var lower := set i | 0 <= i < n && front[i];
      var upper := if b[n] then {n} else {};
      assert (set i | 0 <= i < |b| && b[i]) == lower + upper;
      DisjointUnionSize(lower, upper);
    }
  }

  /** The count is positive exactly when some entry is `true`. */
  lemma {:induction false} CountTruePositive(b: seq<bool>)
    ensures CountTrue(b) > 0 <==> exists i :: 0 <= i < |b| && b[i]
  {
    if |b| > 0 {
      var n := |b| - 1;
      CountTruePositive(b[..n]);
      if CountTrue(b[..n]) > 0 {
        var i :| 0 <= i < n && b[..n][i];
        assert b[i];
      }
      if exists i :: 0 <= i < |b| && b[i] {
        var i :| 0 <= i < |b| && b[i];
        if i < n {
          assert b[..n][i];
        }
      }
    }
  }
}

=== FILE: week_grid.dfy ===
/** The week grid under a habit (TrackioApp/Views/Habits/Components/WeekGridView.swift):
    the Monday-first week of check-mark cells and what tapping a cell does. */
module WeekGrid {
  import opened Calendar
  import opened Habits
  import opened HabitStore

  /** The column headers, Monday first. */
  const WeekGridHeader: seq<DayLabel> := [Mon, Tue, Wed, Thu, Fri, Sat, Sun]

  /** `getDaysOfWeek`: seven consecutive day starts from the Monday found by
      stepping `2 - weekday` days from today (Sunday being weekday 1). */
  function DaysOfWeek(now: Instant): (days: seq<Instant>)
    ensures |days| == 7
    ensures days[0] == AddDays(StartOfDay(now), 2 - Weekday(DayOf(now)))
    ensures forall i :: 0 < i < 7 ==> days[i] == AddDays(days[i - 1], 1)
    ensures forall i :: 0 <= i < 7 ==> IsDayStart(days[i])
  {
    var today := StartOfDay(now);
    StartOfDayIdempotent(now);
    var weekStart := AddDays(today, 2 - Weekday(DayOf(today)));
    var days := seq(7, k requires 0 <= k < 7 => AddDays(weekStart, k));
    assert forall i :: 0 <= i < 7 ==> days[i] == DayStart(DayOf(now) + 2 - Weekday(DayOf(now)) + i);
    forall i | 0 <= i < 7 ensures IsDayStart(days[i]) {
      DayOfDayStart(DayOf(now) + 2 - Weekday(DayOf(now)) + i);
    }
    days
  }

  /** The grid's days fall on Monday, Tuesday, ..., Sunday, matching the header. */
  lemma DaysOfWeekMatchHeader(now: Instant)
    ensures forall i :: 0 <= i < 7 ==> Label(DayOf(DaysOfWeek(now)[i])) == WeekGridHeader[i]
    ensures Weekday(DayOf(DaysOfWeek(now)[0])) == 2
  {
    var today := DayOf(now);
    var days := DaysOfWeek(now);
    forall i | 0 <= i < 7
      ensures DayOf(days[i]) == today + 2 - Weekday(today) + i
    {
      DayOfDayStart(today);
      DayOfAddDays(DayStart(today), 2 - Weekday(today) + i);
    }
    assert Weekday(today + 2 - Weekday(today)) == 2;
  }

  /** Today is shown exactly when it is not a Sunday; on a Sunday the grid
      starts the next day, showing the following Monday to Sunday. */
  lemma TodayShownUnlessSunday(now: Instant)
    ensures StartOfDay(now) in DaysOfWeek(now) <==> Weekday(DayOf(now)) != 1
    ensures Weekday(DayOf(now)) == 1 ==> DaysOfWeek(now)[0] == AddDays(StartOfDay(now), 1)
    ensures Weekday(DayOf(now)) != 1 ==> DaysOfWeek(now)[Weekday(DayOf(now)) - 2] == StartOfDay(now)
  {
    var today := StartOfDay(now);
    var w := Weekday(DayOf(now));
    var days := DaysOfWeek(now);
    if w != 1 {
      assert days[w - 2] == today;
    }
  }

  /** A cell shows a check mark when its day is in the completion set. */
  predicate IsCellCompleted(h: Habit, date: Instant) {
    StartOfDay(date) in h.completedDates
  }

  /** Tapping a cell toggles that day for the habit, through the store. */
  function TapCell(hs: seq<Habit>, h: Habit, date: Instant): (r: seq<Habit>)
    ensures |r| == |hs|
    ensures forall j :: 0 <= j < |hs| ==> r[j].id == hs[j].id
    ensures Find(hs, h.id).None? ==> r == hs
  {
    ToggleHabit(hs, h.id, date)
  }

  /** After a tap the stored habit shows the tapped cell flipped and every
      other day as before. */
  lemma TapFlipsCell(hs: seq<Habit>, h: Habit, date: Instant, other: Instant)
    requires h in hs
    requires UniqueIds(hs)
    ensures var g := Find(TapCell(hs, h, date), h.id);
            && g.Some?
            && (IsCellCompleted(g.value, date) <==> !IsCellCompleted(h, date))
            && (StartOfDay(other) != StartOfDay(date) ==>
                  (IsCellCompleted(g.value, other) <==> IsCellCompleted(h, other)))
  {
    var i :| 0 <= i < |hs| && hs[i] == h;
    FindUnique(hs, i);
    var r := TapCell(hs, h, date);
    assert forall j :: 0 <= j < |r| ==> r[j].id == hs[j].id;
    SameIdsSameIndex(hs, r, h.id);
  }
}

=== FILE: wrappers.dfy ===
/** Failure-compatible wrappers used across the model: Swift optionals become
    `Option`, and decoding that can throw becomes `Result`. */
module Wrappers {

  datatype Option<+T> = None | Some(value: T) {

    /** The wrapped value, or `default` when absent (Swift's `??`). */
    function GetOr(default: T): T {
      match this
      case Some(v) => v
      case None => default
    }
  }

  datatype Result<+T, +E> = Success(value: T) | Failure(error: E) {

    predicate IsFailure() {
      Failure?
    }

    function PropagateFailure<U>(): Result<U, E>
      requires Failure?
    {
      Failure(error)
    }

    function Extract(): T
      requires Success?
    {
      value
    }
  }
}
